=== FILE: README.md ===
# WKWebView plugin core, modelled in Dafny

This project models the macOS side of a Flutter webview plugin, which has two parts.

`CustomWebviewPlugin` keeps a map from `Int64` ids to controllers. It hands out ids from a counter and dispatches the fourteen method-channel commands. Each command's arguments are validated and its result becomes a reply.

`CustomWebviewController` owns one `WKWebView`. It does four things:
- normalizes addresses before loading them;
- drives the engine (back, forward, reload, scripts, messages);
- turns WebKit's navigation and script-message callbacks into `onXxx` events for the host;
- tears the engine down on `dispose`.

Everything is pure: datatypes, functions (each one that carries a contract names its result) and lemmas. The modules follow the program's structure:

- `Values`: `Option`, the JSON values that cross the channel, and the `Int64` range.
- `Text`: trimming by a character set (`trimmingCharacters(in:)`, used with Foundation's `whitespacesAndNewlines`), substring search and replace-all on `string`.
- `UrlNormalizer`: the address pipeline of `loadUrl` and the `URLRequest` it builds.
- `Events`: the outbound event vocabulary, its method names and its argument dictionaries.
- `EngineHandle`: one controller. It holds an optional view snapshot and a log of the commands it has issued to the engine. It also defines every operation the plugin calls on a controller.
- `Navigation`: the navigation and UI delegate callbacks. It includes a model of one navigation's callback order (start, redirects, then commit and finish or a failure) and the event report that order produces.
- `ScriptMessages`: the `flutterWebview` script-message handler. Every body shape becomes one `onJavaScriptMessage` envelope.
- `Plugin`: the registry, the argument guards, the dispatcher and traces of calls.

The engine and Foundation are represented by inputs rather than called:
- WebKit's state comes in as a `WebView` snapshot (address, title, loading, back and forward history).
- What the controller does to the engine is recorded as `EngineCommand`s, so "issues no load" reads "the log is unchanged".
- `URL(string:)` is a predicate parameter.
- `JSONSerialization` parsing and serialization are outcome parameters, and so is the answer WebKit gives to a script.
- The ISO-8601 timestamp is a string parameter.

## Model

| member | source | states |
|---|---|---|
| Text.Trim | macos/Classes/CustomWebviewController.swift:75 | The trimmed text neither starts nor ends with a character of the set. It is the slice of the input between a leading and a trailing run made only of such characters. An already clean string is unchanged |
| Text.TrimEnds | macos/Classes/CustomWebviewController.swift:75 | The two runs do not overlap, the text between them is clean, everything outside it is in the set, and nothing is cut from a clean string |
| Text.Leading | macos/Classes/CustomWebviewController.swift:75 | The leading run stops at the first character outside the set |
| Text.LeadingRun | macos/Classes/CustomWebviewController.swift:75 | Every character of the leading run is in the set |
| Text.Trailing | macos/Classes/CustomWebviewController.swift:75 | The trailing run stops at the last character outside the set |
| Text.TrailingRun | macos/Classes/CustomWebviewController.swift:75 | Every character of the trailing run is in the set |
| Text.ReplaceAll | macos/Classes/CustomWebviewController.swift:84 | `replacingOccurrences` changes nothing when the pattern does not occur, and a match at the front is replaced before the scan resumes after it |
| Text.ReplaceAllInserts | macos/Classes/CustomWebviewController.swift:84 | When the pattern occurs, the replacement occurs in the result |
| Text.ReplaceAllSkips | macos/Classes/CustomWebviewController.swift:84 | A prefix that cannot start a match is copied through unchanged |
| Text.ReplaceAllKeepsCleanEnd | macos/Classes/CustomWebviewController.swift:84 | Replacing with text that does not end in a trimmed character keeps a string's last character outside the set |
| Text.ContainsAppendLeft | macos/Classes/CustomWebviewController.swift:83 | A substring of a string is a substring of any extension of it on the left |
| Text.ContainsThroughPrefix | macos/Classes/CustomWebviewController.swift:83 | A substring of a prefix is a substring of the whole string |
| Text.MissingFirstChar | macos/Classes/CustomWebviewController.swift:83 | A pattern whose first character never occurs is not contained |
| Text.ContainsPastPrefix | macos/Classes/CustomWebviewController.swift:83 | A match of a pattern in a concatenation lies in the suffix when the prefix cannot contain it |
| UrlNormalizer.WithScheme | macos/Classes/CustomWebviewController.swift:77-80 | The result always has one of the three schemes; the input is left alone exactly when it already has one, otherwise only `https://` is prepended |
| UrlNormalizer.SchemeFirstChar | macos/Classes/CustomWebviewController.swift:78 | Every accepted scheme starts with `h` or `f` |
| UrlNormalizer.GoogleRewrite | macos/Classes/CustomWebviewController.swift:82-85 | The string changes exactly when it contains `google.com`, has no `www.` and contains `://google.com`; a changed string names `://www.google.com` |
| UrlNormalizer.RewriteKeepsSchemeAndClean | macos/Classes/CustomWebviewController.swift:77-85 | The rewrite keeps the scheme and the trimmed ends of its input |
| UrlNormalizer.NormalizeUrlString | macos/Classes/CustomWebviewController.swift:75-85 | Every normalized address has a scheme and no surrounding whitespace |
| UrlNormalizer.NormalizeIdempotent | macos/Classes/CustomWebviewController.swift:75-85 | Normalizing a normalized address changes nothing |
| UrlNormalizer.PlainHostGetsHttps | macos/Classes/CustomWebviewController.swift:75-85 | An address without a scheme and without `google.com` becomes `https://` followed by its trimmed text |
| UrlNormalizer.WwwDisablesRewrite | macos/Classes/CustomWebviewController.swift:82-85 | Any `www.` in the trimmed address switches the rewrite off, so only the scheme step applies |
| UrlNormalizer.BareGoogleRewritten | macos/Classes/CustomWebviewController.swift:75-85 | `google.com` followed by any colon-free, `w`-free tail normalizes to `https://www.google.com` plus that tail, so `google.com.example` is rewritten too |
| UrlNormalizer.Prepare | macos/Classes/CustomWebviewController.swift:87-100 | A request is built exactly when `URL(string:)` accepts the normalized address. It carries that address, the cache-bypassing policy, a 30-second timeout and exactly the three header fields `User-Agent`, `Accept-Language` and `Accept` with their fixed values. A refused address is reported as the normalized string |
| EngineHandle.NewController | macos/Classes/CustomWebviewController.swift:10-15 | A new controller owns a live view, carries its id and has issued nothing |
| EngineHandle.LoadUrl | macos/Classes/CustomWebviewController.swift:68-105 | A load succeeds exactly when the handle is live and the normalized address parses. It then issues exactly one load of that address with the fixed settings. Otherwise it issues nothing and reports `WebView not initialized` or `Invalid URL format: ` plus the normalized address |
| EngineHandle.GoBackOp | macos/Classes/CustomWebviewController.swift:107-115 | Returns true exactly when the handle is live with back history, and issues a back navigation exactly then |
| EngineHandle.GoForwardOp | macos/Classes/CustomWebviewController.swift:117-125 | The forward-history mirror of `GoBackOp` |
| EngineHandle.ReloadOp | macos/Classes/CustomWebviewController.swift:127-129 | A reload is issued exactly when the handle is live |
| EngineHandle.EvaluateOp | macos/Classes/CustomWebviewController.swift:131-144 | There is no error exactly when the handle is live and the engine returned a value, which is then passed on. An engine error wins over any value. A disposed handle runs nothing |
| EngineHandle.InjectOp | macos/Classes/CustomWebviewController.swift:256-269 | Success exactly when the handle is live and the engine reported no error; success and an absent error coincide; the script is run once on a live handle |
| EngineHandle.SendMessageOp | macos/Classes/CustomWebviewController.swift:166-207 | A serializer that throws a Swift error reports `Failed to serialize message: ` and runs nothing. Otherwise exactly one in-page dispatch is issued, carrying the serialized text, or `{}` when the text is missing. Success means live, serialized and no engine error, whatever the page answers; an engine error is reported with its own text |
| EngineHandle.CurrentUrl | macos/Classes/CustomWebviewController.swift:146-148 | The current address is the view's address, and nil once disposed |
| EngineHandle.Title | macos/Classes/CustomWebviewController.swift:150-152 | The title is the view's title, and nil once disposed |
| EngineHandle.IsLoading | macos/Classes/CustomWebviewController.swift:154-156 | True exactly when the handle is live and the view is loading |
| EngineHandle.CanGoBack | macos/Classes/CustomWebviewController.swift:158-160 | True exactly when the handle is live and the view has back history |
| EngineHandle.CanGoForward | macos/Classes/CustomWebviewController.swift:162-164 | True exactly when the handle is live and the view has forward history |
| EngineHandle.Emitted | macos/Classes/CustomWebviewController.swift:302-312 | Events reach the host in order exactly when the handle is live and a channel is attached; otherwise nothing is delivered |
| EngineHandle.Dispose | macos/Classes/CustomWebviewController.swift:275-300 | After dispose the handle is gone. A live handle issues the five teardown steps in order; a disposed one is left exactly as it was |
| EngineHandle.DisposeIdempotent | macos/Classes/CustomWebviewController.swift:275-276 | Disposing twice is the same as disposing once |
| EngineHandle.DisposedIsInert | macos/Classes/CustomWebviewController.swift:68-164 | After dispose every operation fails with `WebView not initialized` or reads the neutral default, and none reaches the engine |
| Events.Arguments | macos/Classes/CustomWebviewController.swift:317-417 | Every event's argument dictionary carries the controller's id under `webviewId` |
| Events.WireRoundTrip | macos/Classes/CustomWebviewController.swift:317-417 | Each event's method name and argument dictionary carry all of its fields, each under its own key, so distinct events are never sent alike |
| Navigation.LifecycleEvents | macos/Classes/CustomWebviewController.swift:317-366 | Start and redirect give one `onPageStarted`, commit gives one state change, finish gives `onPageFinished` then a state change, and either failure gives one `onPageError`. Each event carries the id and the view's fields: the address for a start, the address and title for a finish (empty when missing), the history flags for a state change, the error's description, code and domain for a failure |
| Navigation.Cause | macos/Classes/CustomWebviewController.swift:374-423 | A navigation type has a reported cause exactly when it is recognised, and every cause is one of the five wire names |
| Navigation.CauseNames | macos/Classes/CustomWebviewController.swift:374-423 | Links report `link_clicked`, both form submission and resubmission `form_submitted`, back-forward `back_forward`, reload `reload` and other navigations `other` |
| Navigation.CauseSeparatesTypes | macos/Classes/CustomWebviewController.swift:374-423 | Equal causes mean equal types, except that submission and resubmission share `form_submitted` |
| Navigation.DecidePolicy | macos/Classes/CustomWebviewController.swift:368-424 | Every navigation is allowed. A recognised one is announced once with its cause and the target address or `unknown`. An unrecognised one is announced never, and nothing is sent once the controller is disposed or has no channel |
| Navigation.CreatePopup | macos/Classes/CustomWebviewController.swift:454-460 | No second view is made. A popup with a target loads it into this view with a plain request, and one without a target issues nothing |
| Navigation.RedirectEvents | macos/Classes/CustomWebviewController.swift:443-449 | A run of redirects produces one page announcement each and no terminal or state-change event |
| Navigation.EndingReport | macos/Classes/CustomWebviewController.swift:324-366 | The end of a navigation produces exactly one terminal event and no announcement. History is reported once at commit and once more after a finish. A finish ends with `onPageFinished` for the finished view's address and title, then its history flags |
| Navigation.RunCounts | macos/Classes/CustomWebviewController.swift:317-366 | One navigation reports one `onPageStarted` plus one per redirect, exactly one terminal event, and the expected number of state changes |
| Navigation.RunEnds | macos/Classes/CustomWebviewController.swift:317-366 | A navigation's report starts with `onPageStarted` for the start address. A finished navigation ends with `onPageFinished` for the finished view's address and title, then its history flags; any other ends with `onPageError` |
| Navigation.NavigationReport | macos/Classes/CustomWebviewController.swift:317-366 | One navigation reports `onPageStarted` for the start address first, once more per redirect, and exactly one finish or error. A finished navigation ends with `onPageFinished` for the finished view's address and title, then its history flags; any other ends with `onPageError` |
| Navigation.CountAppend | macos/Classes/CustomWebviewController.swift:302-312 | Counting events of a kind is additive over concatenation of event streams |
| Navigation.EventsForAppend | macos/Classes/CustomWebviewController.swift:302-312 | The events of consecutive callback runs are the concatenation of their events |
| ScriptMessages.Stamp | macos/Classes/CustomWebviewController.swift:496-507 | The envelope carries the view's id and source `javascript` and keeps every other page field. `type` and `data` take their defaults only when missing, and nothing else is added |
| ScriptMessages.ErrorEnvelope | macos/Classes/CustomWebviewController.swift:520-532 | The parse-failure envelope is a well-formed envelope for the view |
| ScriptMessages.Normalize | macos/Classes/CustomWebviewController.swift:468-532 | Every body becomes a well-formed envelope. A string that throws in parsing becomes the error envelope with the reason and original text. Otherwise the envelope keeps the page's fields, stamped and defaulted: a dictionary body's own fields, the fields of a string that parses to an object, and the wrapped text (`content` and `timestamp`) for a string that parses to anything else or for any other body, which is wrapped by its description |
| ScriptMessages.OnScriptMessage | macos/Classes/CustomWebviewController.swift:465-542 | A message on `flutterWebview` reaches the host as exactly one `onJavaScriptMessage`, and other handler names produce nothing. Nothing is sent once the controller is disposed or has no channel |
| ScriptMessages.StampOverridesPage | macos/Classes/CustomWebviewController.swift:496-498 | A page cannot forge its `webviewId` or `source` |
| ScriptMessages.PlainStringWrapped | macos/Classes/CustomWebviewController.swift:474-486 | A string that parses to a non-object is delivered as `type: message` with the text as `data.content` |
| ScriptMessages.ParseFailureDelivered | macos/Classes/CustomWebviewController.swift:520-537 | A string that fails to parse is not dropped: it is delivered as `type: error` carrying the reason and the original text |
| ScriptMessages.NormalizeIdempotent | macos/Classes/CustomWebviewController.swift:496-507 | Re-normalizing a delivered envelope gives it back unchanged |
| Plugin.CommandOf | macos/Classes/CustomWebviewPlugin.swift:20-53 | A method name is recognised exactly when it is one of the fourteen command names, and then the command's wire name is that name |
| Plugin.CommandOfWireName | macos/Classes/CustomWebviewPlugin.swift:20-53 | Each command is reached by its own wire name, so the fourteen names are distinct |
| Plugin.Init | macos/Classes/CustomWebviewPlugin.swift:6-7 | The empty registry with the counter at zero satisfies the registry invariant |
| Plugin.Resolve | macos/Classes/CustomWebviewPlugin.swift:65-72 | The guard passes exactly when the arguments are a map, `webviewId` passes `as? Int64` (an integer in range, or a boolean read as 1 or 0), the required field has its type and a controller is registered under the id |
| Plugin.Create | macos/Classes/CustomWebviewPlugin.swift:55-63 | Replies with the counter's value, advances it by one and registers a fresh controller under exactly that new id. The id was not registered before and the invariant is kept. At `Int64.max` the increment traps and nothing changes |
| Plugin.DisposeCommand | macos/Classes/CustomWebviewPlugin.swift:233-246 | Without an id that passes `as? Int64` the call is rejected and nothing changes. Otherwise it succeeds with nil, forgets exactly that id, and tears down and releases its controller if one was registered |
| Plugin.Invoke | macos/Classes/CustomWebviewPlugin.swift:74-230 | A resolved command never disposes its controller and makes its engine call. On a live view, a load of an address that parses, a back or forward move with history, a reload, a script and a serialized message are each issued once, and the getters leave the controller as it was. It replies with a value or an error under the command's own code. `goBack`, `goForward` and the getters reply the view's flag, address or title (false or nil once disposed) and `reload` replies nil. `evaluateJavaScript` replies the script's value, or nil when it has none. Load, send and inject reply nil on success. Every controller failure's message is the controller's error text: `WebView not initialized`, the invalid address, the serializer's failure or the engine's error |
| Plugin.Dispatch | macos/Classes/CustomWebviewPlugin.swift:20-246 | `createWebview` is exactly `Plugin.Create` and `disposeWebview` exactly `Plugin.DisposeCommand`. A per-instance command is rejected without effect when its arguments do not resolve. Otherwise it changes only the addressed controller, keeps that controller's handle, and replies with a value or the command's own error code. The addressed controller afterwards, with the engine calls it issued, and the reply are exactly those of `Plugin.Invoke` |
| Plugin.Handle | macos/Classes/CustomWebviewPlugin.swift:20-53 | A name outside the fourteen is answered not-implemented without effect. `createWebview` is exactly `Plugin.Create`, `disposeWebview` exactly `Plugin.DisposeCommand`, and every other command's wire name dispatches that command and no other |
| Plugin.DispatchPreservesValid | macos/Classes/CustomWebviewPlugin.swift:20-246 | Every recognised command keeps the registry invariant |
| Plugin.HandlePreservesValid | macos/Classes/CustomWebviewPlugin.swift:20-246 | Every call keeps the invariant: registered ids lie below the counter, name their own controller and are live |
| Plugin.RejectedExactlyWhenUnresolved | macos/Classes/CustomWebviewPlugin.swift:65-231 | A per-instance command fails with `INVALID_ARGUMENTS` exactly when its arguments do not resolve, and then changes nothing |
| Plugin.ErrorCodesByCommand | macos/Classes/CustomWebviewPlugin.swift:65-246 | Every error is `INVALID_ARGUMENTS` or the command's own failure code. Commands without one never fail once resolved. By wire name, the code string is `INVALID_ARGUMENTS`, or `LOAD_ERROR` for `loadUrl`, `JS_ERROR` for `evaluateJavaScript`, `MESSAGE_ERROR` for `sendMessageToJS` and `INJECTION_ERROR` for `injectJavaScript` |
| Plugin.Int64Cast | macos/Classes/CustomWebviewPlugin.swift:67 | The bridged cast yields only `Int64` values. It keeps an integer exactly when it is in range, reads `true` as 1 and `false` as 0, and refuses every other value |
| Plugin.BooleanIdAddresses | macos/Classes/CustomWebviewPlugin.swift:233-246 | A boolean `webviewId` is not rejected: it addresses instance 1 or 0, and `disposeWebview` with it succeeds and forgets that id |
| Plugin.UnknownMethodNotImplemented | macos/Classes/CustomWebviewPlugin.swift:50-51 | Unknown methods are answered not-implemented with no state change |
| Plugin.CommandsKeepRegistryShape | macos/Classes/CustomWebviewPlugin.swift:65-231 | Commands other than create and dispose keep the ids, the counter and the released list. They touch at most the addressed controller and dispose none |
| Plugin.DisposeIdempotent | macos/Classes/CustomWebviewPlugin.swift:233-246 | A second dispose of the same id changes nothing, and both succeed |
| Plugin.DisposedIdRejected | macos/Classes/CustomWebviewPlugin.swift:233-246 | After dispose, every per-instance command naming that id is rejected as invalid arguments |
| Plugin.LoadUrlReply | macos/Classes/CustomWebviewPlugin.swift:65-81 | Through the dispatcher, `loadUrl` on a registered id succeeds exactly when the normalized address parses. Otherwise its `LOAD_ERROR` names that address |
| Plugin.ViewStateReplies | macos/Classes/CustomWebviewPlugin.swift:83-194 | Through the dispatcher, on a registered id, `goBack` and `canGoBack` reply the view's back-history flag and `goForward` and `canGoForward` its forward one. `isLoading` replies the loading flag, and the two getters reply the address and title, or nil when there is none |
| Plugin.ScriptReplies | macos/Classes/CustomWebviewPlugin.swift:119-231 | Through the dispatcher, on a registered id, `evaluateJavaScript` replies the script's value or a `JS_ERROR` with the engine's error text. `injectJavaScript` and `sendMessageToJS` reply nil or the engine's error text under their codes. A serializer that throws a Swift error is reported as `MESSAGE_ERROR` with `Failed to serialize message: ` and the reason |
| Plugin.EngineEffects | macos/Classes/CustomWebviewPlugin.swift:65-231 | Through the dispatcher, on a registered id, `loadUrl` of an address that parses issues one load with the fixed settings. `goBack` and `goForward` issue a move exactly when there is history. `reload` issues a reload, and `evaluateJavaScript` and `injectJavaScript` run the script once. `sendMessageToJS` issues one dispatch of every message the serializer accepts, and the getters leave the controller unchanged |
| Plugin.CounterMonotonic | macos/Classes/CustomWebviewPlugin.swift:55-57 | The counter never decreases, and a call that hands out an id hands out the counter and advances it by one |
| Plugin.IdsStrictlyIncrease | macos/Classes/CustomWebviewPlugin.swift:55-63 | Over any sequence of calls, the created ids strictly increase and lie between the starting and final counter. None was registered at the start, so no id is reused, whatever is disposed in between |

## Left out

- `setupWebView` (configuration, frame, user agent on the view, media settings): only its outcome is modelled, a live view with empty history.
- The bootstrap script of `getBridgeInitializationScript`: it runs inside the page.
- The text of the dispatch expression in `sendMessageToJS`: the model issues a `DispatchMessage` command that carries the serialized message. How the page-side code splices and reads that text is not modelled.
- `getNavigationTypeString` and the `print` calls: they only log.
- `getWebView`: it exposes the platform view for embedding, which is outside the model.
- `register(with:)` and the `FlutterMethodChannel` I/O, plus the main-queue hop in `sendMessageToFlutter`. An emitted event is an element of a sequence, and the weak channel reference is a flag on the controller.
- Asynchrony: every completion handler is modelled as answered within the call, with WebKit's answer as a parameter. Stale answers after dispose are therefore not modelled.
- `URL(string:)`, `JSONSerialization` (parsing and serialization) and `ISO8601DateFormatter`: these are parameters. The message dictionary handed to the serializer is the `Json` value from the arguments.
- Floating-point numbers in JSON values: the `Json` datatype has integers, strings, booleans, arrays and objects only. So `Plugin.Int64Cast` has no case for a whole-valued double such as `1.0`, which the bridged `as? Int64` would also accept.
- The `Runner` files (the CEF bridge, `CefViewFactory`, `AppDelegate`, `MainFlutterWindow`) are not part of this model.
- EngineHandle.SendMessageOp: `SerializationFailed` stands only for a Swift error thrown by `JSONSerialization.data(withJSONObject:)`. A message the serializer cannot encode at all (a NaN or infinite double, typed data, a map with non-string keys) raises an Objective-C exception that the `do`/`catch` does not catch, so the app terminates. The `Json` datatype cannot represent such a message, so the model has no case for it.
- `decidePolicyFor navigationResponse`: it allows every response and emits nothing, so there is nothing to model beyond that answer.
- UrlNormalizer.WithScheme and UrlNormalizer.GoogleRewrite compare strings one Unicode scalar at a time. Swift's `hasPrefix` and `contains` compare `Character`s (grapheme clusters). The two differ only when a combining mark follows a matched pattern character, as in `https://` followed by U+0301: Swift sees no `https://` prefix there, while the model does.
- The plain-string case of the script-message handler assumes `string.data(using: .utf8)` never fails, as is the case for a Swift `String`.

Behaviour of the code worth noting:
- The `google.com` rewrite is a substring test (`google.com` anywhere, `www.` nowhere) followed by replacing every `://google.com`. It is not a comparison of the host. `UrlNormalizer.BareGoogleRewritten` shows that `google.com.example` becomes `https://www.google.com.example`.
- Server redirects re-send `onPageStarted`, so a navigation reports one start plus one per redirect (`Navigation.NavigationReport`).
- `disposeWebview` is not unconditionally successful. It rejects arguments that are not a map or whose `webviewId` fails `as? Int64`; it succeeds for unknown and already-disposed ids.
- `createWebview` at `Int64.max` traps on the counter increment. The model says so with the `Trapped` reply.

=== FILE: engine_handle.dfy ===
/**
 One `CustomWebviewController`: the optional engine handle (`webView`),
 the commands it issues to the engine, and the operations the plugin calls.

 The engine's own state (history, loading, current address and title) is
 supplied by the environment as a `WebView` snapshot; what the controller
 does to the engine is recorded in `issued`, so "issues no load" reads
 "leaves `issued` unchanged". Completion handlers that WebKit calls later
 are modelled by passing the engine's answer in as a parameter.
 */
module EngineHandle {
  import opened Values
  import opened UrlNormalizer
  import opened Events

  /** What the controller can observe of a live `WKWebView`. */
  datatype WebView = WebView(url: Option<string>, title: Option<string>, isLoading: bool, canGoBack: bool, canGoForward: bool)

  /** A call the controller makes on its `WKWebView`. `DispatchMessage` is
      the evaluation of the guarded in-page dispatch expression
      `sendMessageToJS` builds around a serialized message; the page-side text
      of that expression is not modelled, only the message it carries. */
  datatype EngineCommand =
    | Load(request: Request)
    | GoBack
    | GoForward
    | Reload
    | Evaluate(script: string)
    | DispatchMessage(json: string)
    | StopLoading
    | DetachDelegates
    | RemoveMessageHandler(name: string)
    | ClearWebsiteData
    | RemoveFromSuperview

  /** What a controller operation leaves behind: the controller afterwards
      and the answer the call gives. */
  datatype Answered<T> = Answered(controller: Controller, answer: T)

  /** `channel` says whether the weak method-channel reference is set. */
  datatype Controller = Controller(webviewId: int, webView: Option<WebView>, channel: bool, issued: seq<EngineCommand>) {
    predicate Live() {
      webView.Some?
    }
  }

  /** The engine's answer to one `evaluateJavaScript` call. */
  datatype ScriptAnswer = ScriptValue(value: Option<Json>) | ScriptFailure(description: string)

  /** The outcome of `JSONSerialization.data(withJSONObject:)` followed by the
      UTF-8 decode (which may yield nil). */
  datatype Serialization = Serialized(text: Option<string>) | SerializationFailed(description: string)

  /** The `(Bool, String?)` completion of load, send and inject. */
  datatype Completion = Completion(success: bool, error: Option<string>)

  /** The `(Any?, String?)` completion of evaluate. */
  datatype EvalCompletion = EvalCompletion(result: Option<Json>, error: Option<string>)

  const NOT_INITIALIZED: string := "WebView not initialized"
  const INVALID_URL_PREFIX: string := "Invalid URL format: "
  const SERIALIZE_PREFIX: string := "Failed to serialize message: "
  const MESSAGE_CHANNEL: string := "flutterWebview"

  /** The engine calls `dispose` makes, in order. */
  const TEARDOWN: seq<EngineCommand> :=
    [StopLoading, DetachDelegates, RemoveMessageHandler(MESSAGE_CHANNEL), ClearWebsiteData, RemoveFromSuperview]

  /** A freshly initialised controller: `setupWebView` always produces a view. */
  function NewController(id: int, channel: bool): (c: Controller)
    ensures c.Live() && c.webviewId == id && c.issued == []
  {
    Controller(id, Some(WebView(None, None, false, false, false)), channel, [])
  }

  /** The controller after issuing `cmds`; nothing else about it changes. */
  function Issue(c: Controller, cmds: seq<EngineCommand>): (c': Controller)
    ensures c'.webviewId == c.webviewId && c'.webView == c.webView && c'.channel == c.channel
    ensures c'.issued == c.issued + cmds
  {
    c.(issued := c.issued + cmds)
  }

  /** Only `dispose` changes anything but the command log. */
  predicate SameHandle(c: Controller, c': Controller) {
    c'.webviewId == c.webviewId && c'.webView == c.webView && c'.channel == c.channel
  }

  /** `after` is `before` followed by exactly one load of `url` with the
      fixed settings of `loadUrl`: cache bypassed, a 30-second timeout and the
      three header fields. */
  predicate LoadIssued(before: seq<EngineCommand>, after: seq<EngineCommand>, url: string) {
    && |after| == |before| + 1 && after[..|before|] == before
    && var cmd := after[|before|];
       cmd.Load? && cmd.request.url == url
       && cmd.request.timeoutSeconds == LOAD_TIMEOUT_SECONDS
       && cmd.request.cachePolicy == ReloadIgnoringLocalAndRemoteCacheData
       && cmd.request.headers == LOAD_HEADERS
  }

  /** `loadUrl(url:completion:)`: fails on a disposed handle and on an address
      `URL(string:)` refuses, issuing nothing; otherwise issues exactly one load
      of the normalized address with the fixed request settings. */
  function LoadUrl(c: Controller, raw: string, parses: string -> bool): (r: Answered<Completion>)
    ensures SameHandle(c, r.controller)
    ensures !c.Live() ==> r == Answered(c, Completion(false, Some(NOT_INITIALIZED)))
    ensures c.Live() && !parses(NormalizeUrlString(raw)) ==>
      r == Answered(c, Completion(false, Some(INVALID_URL_PREFIX + NormalizeUrlString(raw))))
    ensures r.answer.success <==> c.Live() && parses(NormalizeUrlString(raw))
    ensures r.answer.success ==>
      r.answer.error == None && LoadIssued(c.issued, r.controller.issued, NormalizeUrlString(raw))
    ensures !r.answer.success ==> r.controller == c
  {
    if !c.Live() then
      Answered(c, Completion(false, Some(NOT_INITIALIZED)))
    else
      match Prepare(raw, parses)
      case InvalidUrl(attempted) => Answered(c, Completion(false, Some(INVALID_URL_PREFIX + attempted)))
      case Ready(request) =>
        var c' := Issue(c, [Load(request)]);
        assert c'.issued[..|c.issued|] == c.issued;
        Answered(c', Completion(true, None))
  }

  /** `goBack()`: true exactly when the handle is live and has back history,
      and a navigation is issued exactly then. */
  function GoBackOp(c: Controller): (r: Answered<bool>)
    ensures SameHandle(c, r.controller)
    ensures r.answer <==> c.Live() && c.webView.value.canGoBack
    ensures r.controller.issued == (if r.answer then c.issued + [GoBack] else c.issued)
  {
    if c.Live() && c.webView.value.canGoBack then Answered(Issue(c, [GoBack]), true) else Answered(c, false)
  }

  /** `goForward()`: the forward-history mirror of `GoBackOp`. */
  function GoForwardOp(c: Controller): (r: Answered<bool>)
    ensures SameHandle(c, r.controller)
    ensures r.answer <==> c.Live() && c.webView.value.canGoForward
    ensures r.controller.issued == (if r.answer then c.issued + [GoForward] else c.issued)
  {
    if c.Live() && c.webView.value.canGoForward then Answered(Issue(c, [GoForward]), true) else Answered(c, false)
  }

  /** `reload()`: fire and forget, and only on a live handle. */
  function ReloadOp(c: Controller): (c': Controller)
    ensures SameHandle(c, c')
    ensures c'.issued == (if c.Live() then c.issued + [Reload] else c.issued)
  {
    if c.Live() then Issue(c, [Reload]) else c
  }

  /** `evaluateJavaScript(script:completion:)`: on a live handle the script is
      run once and the engine's error wins over its value; a disposed handle
      runs nothing. */
  function EvaluateOp(c: Controller, script: string, answer: ScriptAnswer): (r: Answered<EvalCompletion>)
    ensures SameHandle(c, r.controller)
    ensures r.controller.issued == (if c.Live() then c.issued + [Evaluate(script)] else c.issued)
    ensures r.answer.error.None? <==> c.Live() && answer.ScriptValue?
    ensures r.answer.error.Some? ==> r.answer.result.None?
    ensures r.answer.error.None? ==> r.answer.result == answer.value
    ensures c.Live() && answer.ScriptFailure? ==> r.answer.error == Some(answer.description)
    ensures !c.Live() ==> r.answer.error == Some(NOT_INITIALIZED)
  {
    if !c.Live() then
      Answered(c, EvalCompletion(None, Some(NOT_INITIALIZED)))
    else
      var c' := Issue(c, [Evaluate(script)]);
      match answer
      case ScriptFailure(description) => Answered(c', EvalCompletion(None, Some(description)))
      case ScriptValue(value) => Answered(c', EvalCompletion(value, None))
  }

  /** `injectJavaScript(script:completion:)`: like evaluate, but the value is
      dropped and only success is reported. */
  function InjectOp(c: Controller, script: string, answer: ScriptAnswer): (r: Answered<Completion>)
    ensures SameHandle(c, r.controller)
    ensures r.controller.issued == (if c.Live() then c.issued + [Evaluate(script)] else c.issued)
    ensures r.answer.success <==> c.Live() && answer.ScriptValue?
    ensures r.answer.success <==> r.answer.error.None?
    ensures c.Live() && answer.ScriptFailure? ==> r.answer.error == Some(answer.description)
  {
    if !c.Live() then
      Answered(c, Completion(false, Some(NOT_INITIALIZED)))
    else
      var c' := Issue(c, [Evaluate(script)]);
      match answer
      case ScriptFailure(description) => Answered(c', Completion(false, Some(description)))
      case ScriptValue(_) => Answered(c', Completion(true, None))
  }

  /** `sendMessageToJS(message:completion:)`: a serializer failure reports
      `Failed to serialize message: ...` and runs no script; otherwise the
      in-page dispatch is issued once and success means only that the engine
      reported no error (the in-page `true`/`false` is ignored). */
  function SendMessageOp(c: Controller, serialization: Serialization, answer: ScriptAnswer): (r: Answered<Completion>)
    ensures SameHandle(c, r.controller)
    ensures !c.Live() ==> r == Answered(c, Completion(false, Some(NOT_INITIALIZED)))
    ensures c.Live() && serialization.SerializationFailed? ==>
      r == Answered(c, Completion(false, Some(SERIALIZE_PREFIX + serialization.description)))
    ensures c.Live() && serialization.Serialized? ==>
      r.controller.issued == c.issued + [DispatchMessage(serialization.text.GetOr("{}"))]
    ensures r.answer.success <==> c.Live() && serialization.Serialized? && answer.ScriptValue?
    ensures c.Live() && serialization.Serialized? && answer.ScriptFailure? ==>
      r.answer.error == Some(answer.description)
    ensures r.answer.success <==> r.answer.error.None?
  {
    if !c.Live() then
      Answered(c, Completion(false, Some(NOT_INITIALIZED)))
    else
      match serialization
      case SerializationFailed(description) =>
        Answered(c, Completion(false, Some(SERIALIZE_PREFIX + description)))
      case Serialized(text) =>
        var c' := Issue(c, [DispatchMessage(text.GetOr("{}"))]);
        match answer
        case ScriptFailure(description) => Answered(c', Completion(false, Some(description)))
        case ScriptValue(_) => Answered(c', Completion(true, None))
  }

  /** `getCurrentUrl()`: nil once disposed. */
  function CurrentUrl(c: Controller): (u: Option<string>)
    ensures !c.Live() ==> u.None?
    ensures c.Live() ==> u == c.webView.value.url
  {
    if c.Live() then c.webView.value.url else None
  }

  /** `getTitle()`: nil once disposed. */
  function Title(c: Controller): (t: Option<string>)
    ensures !c.Live() ==> t.None?
    ensures c.Live() ==> t == c.webView.value.title
  {
    if c.Live() then c.webView.value.title else None
  }

  /** `isLoading()`: false once disposed. */
  function IsLoading(c: Controller): (b: bool)
    ensures b <==> c.Live() && c.webView.value.isLoading
  {
    if c.Live() then c.webView.value.isLoading else false
  }

  /** `canGoBack()`: false once disposed. */
  function CanGoBack(c: Controller): (b: bool)
    ensures b <==> c.Live() && c.webView.value.canGoBack
  {
    if c.Live() then c.webView.value.canGoBack else false
  }

  /** `canGoForward()`: false once disposed. */
  function CanGoForward(c: Controller): (b: bool)
    ensures b <==> c.Live() && c.webView.value.canGoForward
  {
    if c.Live() then c.webView.value.canGoForward else false
  }

  /** What reaches the host from a controller's callbacks: nothing once
      disposed (`dispose` detached the delegates and the message handler, so
      WebKit no longer calls in), nothing without a channel
      (`sendMessageToFlutter` only logs), and otherwise every event in order. */
  function Emitted(c: Controller, evs: seq<Event>): (out: seq<Event>)
    ensures out == evs || out == []
    ensures c.Live() && c.channel ==> out == evs
    ensures !(c.Live() && c.channel) ==> out == []
  {
    if c.Live() && c.channel then evs else []
  }

  /** `dispose()`: a live handle is torn down (stop, detach, unregister the
      message handler, clear site data, unmount) and dropped; a disposed one
      is left exactly as it is. */
  function Dispose(c: Controller): (c': Controller)
    ensures !c'.Live()
    ensures c'.webviewId == c.webviewId && c'.channel == c.channel
    ensures c.Live() ==> c'.issued == c.issued + TEARDOWN
    ensures !c.Live() ==> c' == c
  {
    if c.Live() then Controller(c.webviewId, None, c.channel, c.issued + TEARDOWN) else c
  }

  /** `dispose` is idempotent. */
  lemma DisposeIdempotent(c: Controller)
    ensures Dispose(Dispose(c)) == Dispose(c)
  {
  }

  /** After `dispose`, every operation is inert: each one fails or reads the
      neutral default, and none of them reaches the engine. */
  lemma DisposedIsInert(c: Controller, raw: string, parses: string -> bool, script: string,
                        answer: ScriptAnswer, serialization: Serialization)
    ensures var d := Dispose(c);
      && LoadUrl(d, raw, parses) == Answered(d, Completion(false, Some(NOT_INITIALIZED)))
      && GoBackOp(d) == Answered(d, false)
      && GoForwardOp(d) == Answered(d, false)
      && ReloadOp(d) == d
      && EvaluateOp(d, script, answer) == Answered(d, EvalCompletion(None, Some(NOT_INITIALIZED)))
      && InjectOp(d, script, answer) == Answered(d, Completion(false, Some(NOT_INITIALIZED)))
      && SendMessageOp(d, serialization, answer) == Answered(d, Completion(false, Some(NOT_INITIALIZED)))
      && CurrentUrl(d) == None && Title(d) == None
      && !IsLoading(d) && !CanGoBack(d) && !CanGoForward(d)
  {
  }
}

=== FILE: events.dfy ===
/**
 The outbound event vocabulary: what a controller hands to the method
 channel as `invokeMethod(name, arguments)`. Delivery itself (the
 main-queue hop and the channel) is outside the model; an emitted event is
 an element of a sequence.
 */
module Events {
  import opened Values

  datatype Event =
    | PageStarted(webviewId: int, url: string)
    | PageFinished(webviewId: int, url: string, title: string)
    | PageError(webviewId: int, error: string, code: int, domain: string)
    | NavigationStarted(webviewId: int, url: string, cause: string)
    | NavigationStateChanged(webviewId: int, canGoBack: bool, canGoForward: bool)
    | JavaScriptMessage(webviewId: int, message: map<string, Json>)

  /** The channel method name each event is sent under. */
  function MethodName(e: Event): string {
    match e
    case PageStarted(_, _) => "onPageStarted"
    case PageFinished(_, _, _) => "onPageFinished"
    case PageError(_, _, _, _) => "onPageError"
    case NavigationStarted(_, _, _) => "onNavigationStarted"
    case NavigationStateChanged(_, _, _) => "onNavigationStateChanged"
    case JavaScriptMessage(_, _) => "onJavaScriptMessage"
  }

  /** The argument dictionary each event is sent with. */
  function Arguments(e: Event): (args: map<string, Json>)
    ensures "webviewId" in args && args["webviewId"] == JInt(e.webviewId)
  {
    var id := JInt(e.webviewId);
    match e
    case PageStarted(_, url) =>
      map["webviewId" := id, "url" := JStr(url)]
    case PageFinished(_, url, title) =>
      map["webviewId" := id, "url" := JStr(url), "title" := JStr(title)]
    case PageError(_, error, code, domain) =>
      map["webviewId" := id, "error" := JStr(error), "code" := JInt(code), "domain" := JStr(domain)]
    case NavigationStarted(_, url, cause) =>
      map["webviewId" := id, "url" := JStr(url), "type" := JStr(cause)]
    case NavigationStateChanged(_, back, forward) =>
      map["webviewId" := id, "canGoBack" := JBool(back), "canGoForward" := JBool(forward)]
    case JavaScriptMessage(_, message) =>
      map["webviewId" := id, "message" := JObject(message)]
  }

  function StrField(args: map<string, Json>, key: string): Option<string> {
    if key in args && args[key].JStr? then Some(args[key].s) else None
  }

  function IntField(args: map<string, Json>, key: string): Option<int> {
    if key in args && args[key].JInt? then Some(args[key].i) else None
  }

  function BoolField(args: map<string, Json>, key: string): Option<bool> {
    if key in args && args[key].JBool? then Some(args[key].b) else None
  }

  /** A reader of the wire form: rebuilds an event from a method name and
      argument dictionary. It belongs to no Swift code; it exists to state
      that `Arguments` loses nothing. */
  function Decode(name: string, args: map<string, Json>): Option<Event> {
    match IntField(args, "webviewId")
    case None => None
    case Some(id) =>
      if name == "onPageStarted" && StrField(args, "url").Some? then
        Some(PageStarted(id, StrField(args, "url").value))
      else if name == "onPageFinished" && StrField(args, "url").Some? && StrField(args, "title").Some? then
        Some(PageFinished(id, StrField(args, "url").value, StrField(args, "title").value))
      else if name == "onPageError" && StrField(args, "error").Some? && IntField(args, "code").Some?
        && StrField(args, "domain").Some? then
        Some(PageError(id, StrField(args, "error").value, IntField(args, "code").value, StrField(args, "domain").value))
      else if name == "onNavigationStarted" && StrField(args, "url").Some? && StrField(args, "type").Some? then
        Some(NavigationStarted(id, StrField(args, "url").value, StrField(args, "type").value))
      else if name == "onNavigationStateChanged" && BoolField(args, "canGoBack").Some?
        && BoolField(args, "canGoForward").Some? then
        Some(NavigationStateChanged(id, BoolField(args, "canGoBack").value, BoolField(args, "canGoForward").value))
      else if name == "onJavaScriptMessage" && "message" in args && args["message"].JObject? then
        Some(JavaScriptMessage(id, args["message"].fields))
      else None
  }

  /** The wire form loses nothing: the host can rebuild every event from its
      method name and arguments. */
  lemma WireRoundTrip(e: Event)
    ensures Decode(MethodName(e), Arguments(e)) == Some(e)
  {
  }
}

=== FILE: navigation.dfy ===
/**
 The controller's `WKNavigationDelegate` and `WKUIDelegate` behaviour: how
 WebKit's navigation callbacks become outbound events, the navigation-action
 policy decision, and popup requests folded back into the same view.

 `LifecycleEvents`, `EventsFor` and the navigation reports describe what the
 callbacks hand to `sendMessageToFlutter`; what reaches the host is that
 stream passed through `EngineHandle.Emitted`, so it is the whole report for a
 live handle with a channel and nothing otherwise.
 */
module Navigation {
  import opened Values
  import opened Events
  import opened UrlNormalizer
  import opened EngineHandle

  /** The `NSError` a failure callback carries. */
  datatype NavError = NavError(description: string, code: int, domain: string)

  /** The lifecycle callbacks WebKit makes for one navigation; each carries
      the state of the view at the time of the call. */
  datatype LifecycleCallback =
    | DidStartProvisional(view: WebView)
    | DidReceiveRedirect(view: WebView)
    | DidCommit(view: WebView)
    | DidFinish(view: WebView)
    | DidFail(error: NavError)
    | DidFailProvisional(error: NavError)

  /** The events one lifecycle callback is forwarded as: start and redirect
      announce the page, commit reports history, finish reports the page and
      then history, either failure reports the error. */
  function LifecycleEvents(id: int, cb: LifecycleCallback): (evs: seq<Event>)
    ensures |evs| == (if cb.DidFinish? then 2 else 1)
    ensures forall i :: 0 <= i < |evs| ==> evs[i].webviewId == id
    ensures evs[0].PageStarted? <==> cb.DidStartProvisional? || cb.DidReceiveRedirect?
    ensures evs[0].PageError? <==> cb.DidFail? || cb.DidFailProvisional?
    ensures evs[0].PageFinished? <==> cb.DidFinish?
    ensures evs[|evs| - 1].NavigationStateChanged? <==> cb.DidCommit? || cb.DidFinish?
    ensures evs[0].PageStarted? ==> evs[0].url == cb.view.url.GetOr("")
    ensures evs[0].PageFinished? ==> evs[0].url == cb.view.url.GetOr("") && evs[0].title == cb.view.title.GetOr("")
    ensures evs[|evs| - 1].NavigationStateChanged? ==>
      evs[|evs| - 1].canGoBack == cb.view.canGoBack && evs[|evs| - 1].canGoForward == cb.view.canGoForward
    ensures evs[0].PageError? ==>
      evs[0].error == cb.error.description && evs[0].code == cb.error.code && evs[0].domain == cb.error.domain
  {
    match cb
    case DidStartProvisional(v) => [PageStarted(id, v.url.GetOr(""))]
    case DidReceiveRedirect(v) => [PageStarted(id, v.url.GetOr(""))]
    case DidCommit(v) => [NavigationStateChanged(id, v.canGoBack, v.canGoForward)]
    case DidFinish(v) =>
      [PageFinished(id, v.url.GetOr(""), v.title.GetOr("")), NavigationStateChanged(id, v.canGoBack, v.canGoForward)]
    case DidFail(e) => [PageError(id, e.description, e.code, e.domain)]
    case DidFailProvisional(e) => [PageError(id, e.description, e.code, e.domain)]
  }

  /** `WKNavigationType`, with room for cases added after this code was written. */
  datatype NavigationType =
    | LinkActivated
    | FormSubmitted
    | BackForward
    | ReloadNavigation
    | FormResubmitted
    | OtherNavigation
    | Unrecognized(raw: int)

  datatype Policy = Allow | Cancel

  /** The events a policy callback emits and the policy it hands to WebKit. */
  datatype Decision = Decision(events: seq<Event>, policy: Policy)

  const CAUSES: set<string> := {"link_clicked", "form_submitted", "back_forward", "reload", "other"}

  /** The cause reported for a navigation type; unrecognized types have none. */
  function Cause(t: NavigationType): (r: Option<string>)
    ensures r.Some? <==> !t.Unrecognized?
    ensures r.Some? ==> r.value in CAUSES
  {
    match t
    case LinkActivated => Some("link_clicked")
    case FormSubmitted => Some("form_submitted")
    case FormResubmitted => Some("form_submitted")
    case BackForward => Some("back_forward")
    case ReloadNavigation => Some("reload")
    case OtherNavigation => Some("other")
    case Unrecognized(_) => None
  }

  /** The name each known navigation type is reported under; both form
      types share `form_submitted`. */
  lemma CauseNames()
    ensures Cause(LinkActivated) == Some("link_clicked")
    ensures Cause(FormSubmitted) == Cause(FormResubmitted) == Some("form_submitted")
    ensures Cause(BackForward) == Some("back_forward")
    ensures Cause(ReloadNavigation) == Some("reload")
    ensures Cause(OtherNavigation) == Some("other")
  {
  }

  /** The cause tells navigation types apart, except that a form submission
      and a form resubmission are both `form_submitted`. */
  lemma CauseSeparatesTypes(t: NavigationType, t': NavigationType)
    requires Cause(t).Some? && Cause(t) == Cause(t')
    ensures t == t' || (t in {FormSubmitted, FormResubmitted} && t' in {FormSubmitted, FormResubmitted})
  {
  }

  /** `decidePolicyFor navigationAction`: every navigation is allowed; a known
      type is announced once with its cause and the target address (or
      `unknown`), an unrecognized one is allowed silently; a disposed handle
      or one without a channel announces nothing. */
  function DecidePolicy(c: Controller, t: NavigationType, target: Option<string>): (r: Decision)
    ensures r.policy == Allow
    ensures |r.events| <= 1
    ensures t.Unrecognized? ==> r.events == []
    ensures !(c.Live() && c.channel) ==> r.events == []
    ensures !t.Unrecognized? && c.Live() && c.channel ==>
      r.events == [NavigationStarted(c.webviewId, target.GetOr("unknown"), Cause(t).value)]
  {
    match Cause(t)
    case None => Decision([], Allow)
    case Some(cause) => Decision(Emitted(c, [NavigationStarted(c.webviewId, target.GetOr("unknown"), cause)]), Allow)
  }

  /** `createWebViewWith`: no second view is ever made; a popup with a target
      address is loaded into this view with a plain request. */
  function CreatePopup(c: Controller, target: Option<string>): (r: Answered<Option<WebView>>)
    ensures r.answer.None?
    ensures SameHandle(c, r.controller)
    ensures r.controller.issued ==
      (if c.Live() && target.Some? then c.issued + [Load(PlainRequest(target.value))] else c.issued)
  {
    if c.Live() && target.Some? then Answered(Issue(c, [Load(PlainRequest(target.value))]), None) else Answered(c, None)
  }

  // ----- One navigation, from start to its end -----

  /** How a committed navigation ends. */
  datatype Outcome = Finished(view: WebView) | Failed(error: NavError)

  /** How a navigation leaves the provisional phase. */
  datatype Ending = ProvisionalFailure(error: NavError) | Committed(view: WebView, outcome: Outcome)

  /** The WebKit callback order for one navigation: a provisional start, any
      number of server redirects, then a provisional failure, or a commit
      followed by a finish or a failure. */
  datatype NavigationRun = NavigationRun(start: WebView, redirects: seq<WebView>, ending: Ending)

  function RedirectCallbacks(vs: seq<WebView>): (cbs: seq<LifecycleCallback>)
    ensures |cbs| == |vs|
    ensures forall i :: 0 <= i < |cbs| ==> cbs[i] == DidReceiveRedirect(vs[i])
    decreases |vs|
  {
    if |vs| == 0 then [] else [DidReceiveRedirect(vs[0])] + RedirectCallbacks(vs[1..])
  }

  function EndingCallbacks(e: Ending): seq<LifecycleCallback> {
    match e
    case ProvisionalFailure(err) => [DidFailProvisional(err)]
    case Committed(v, Finished(w)) => [DidCommit(v), DidFinish(w)]
    case Committed(v, Failed(err)) => [DidCommit(v), DidFail(err)]
  }

  function RunCallbacks(run: NavigationRun): seq<LifecycleCallback> {
    [DidStartProvisional(run.start)] + RedirectCallbacks(run.redirects) + EndingCallbacks(run.ending)
  }

  /** The events a sequence of callbacks is forwarded as, in order. */
  function EventsFor(id: int, cbs: seq<LifecycleCallback>): seq<Event>
    decreases |cbs|
  {
    if |cbs| == 0 then [] else LifecycleEvents(id, cbs[0]) + EventsFor(id, cbs[1..])
  }

  predicate IsStart(e: Event) { e.PageStarted? }
  predicate IsTerminal(e: Event) { e.PageFinished? || e.PageError? }
  predicate IsStateChange(e: Event) { e.NavigationStateChanged? }

  function Count(evs: seq<Event>, p: Event -> bool): nat
    decreases |evs|
  {
    if |evs| == 0 then 0 else (if p(evs[0]) then 1 else 0) + Count(evs[1..], p)
  }

  lemma {:induction false} CountAppend(a: seq<Event>, b: seq<Event>, p: Event -> bool)
    ensures Count(a + b, p) == Count(a, p) + Count(b, p)
    decreases |a|
  {
    if |a| == 0 {
      assert a + b == b;
    } else {
      assert (a + b)[1..] == a[1..] + b;
      CountAppend(a[1..], b, p);
    }
  }

  lemma {:induction false} EventsForAppend(id: int, a: seq<LifecycleCallback>, b: seq<LifecycleCallback>)
    ensures EventsFor(id, a + b) == EventsFor(id, a) + EventsFor(id, b)
    decreases |a|
  {
    if |a| == 0 {
      assert a + b == b;
    } else {
      assert (a + b)[1..] == a[1..] + b;
      EventsForAppend(id, a[1..], b);
    }
  }

  /** Redirects only re-announce the page. */
  lemma {:induction false} RedirectEvents(id: int, vs: seq<WebView>)
    ensures var evs := EventsFor(id, RedirectCallbacks(vs));
      && Count(evs, IsStart) == |vs|
      && Count(evs, IsTerminal) == 0
      && Count(evs, IsStateChange) == 0
    decreases |vs|
  {
    if |vs| > 0 {
      var cbs := RedirectCallbacks(vs);
      assert cbs[1..] == RedirectCallbacks(vs[1..]);
      RedirectEvents(id, vs[1..]);
      var head := LifecycleEvents(id, cbs[0]);
      var rest := EventsFor(id, cbs[1..]);
      CountAppend(head, rest, IsStart);
      CountAppend(head, rest, IsTerminal);
      CountAppend(head, rest, IsStateChange);
    }
  }

  predicate Finishes(e: Ending) {
    e.Committed? && e.outcome.Finished?
  }

  /** History is reported at commit and again after a finish. */
  function StateChangesExpected(e: Ending): nat {
    if e.ProvisionalFailure? then 0 else if e.outcome.Finished? then 2 else 1
  }

  /** The event report of one navigation: it opens with `onPageStarted` for the
      start address, announces the page once more per redirect, ends in
      exactly one `onPageFinished` or `onPageError`, and reports history once
      at commit and once more after a finish; a finish reports the finished
      view's address and title, followed by its history flags. */
  lemma NavigationReport(id: int, run: NavigationRun)
    ensures var evs := EventsFor(id, RunCallbacks(run));
      && |evs| > 0
      && evs[0] == PageStarted(id, run.start.url.GetOr(""))
      && Count(evs, IsStart) == 1 + |run.redirects|
      && Count(evs, IsTerminal) == 1
      && Count(evs, IsStateChange) == StateChangesExpected(run.ending)
      && (if Finishes(run.ending) then
            var w := run.ending.outcome.view;
            |evs| >= 2
            && evs[|evs| - 1] == NavigationStateChanged(id, w.canGoBack, w.canGoForward)
            && evs[|evs| - 2] == PageFinished(id, w.url.GetOr(""), w.title.GetOr(""))
          else
            evs[|evs| - 1].PageError?)
  {
    RunCounts(id, run);
    RunEnds(id, run);
  }

  /** How many of each kind of event one navigation reports. */
  lemma RunCounts(id: int, run: NavigationRun)
    ensures var evs := EventsFor(id, RunCallbacks(run));
      && Count(evs, IsStart) == 1 + |run.redirects|
      && Count(evs, IsTerminal) == 1
      && Count(evs, IsStateChange) == StateChangesExpected(run.ending)
  {
    var a := LifecycleEvents(id, DidStartProvisional(run.start));
    var b := EventsFor(id, RedirectCallbacks(run.redirects));
    var c := EventsFor(id, EndingCallbacks(run.ending));
    RunEventsSplit(id, run);
    RedirectEvents(id, run.redirects);
    EndingReport(id, run.ending);
    CountThree(a, b, c, IsStart);
    CountThree(a, b, c, IsTerminal);
    CountThree(a, b, c, IsStateChange);
  }

  /** The first and last events one navigation reports; a finished one ends
      with the finished view's page report and then its history flags. */
  lemma RunEnds(id: int, run: NavigationRun)
    ensures var evs := EventsFor(id, RunCallbacks(run));
      && |evs| > 0
      && evs[0] == PageStarted(id, run.start.url.GetOr(""))
      && (if Finishes(run.ending) then
            var w := run.ending.outcome.view;
            |evs| >= 2
            && evs[|evs| - 1] == NavigationStateChanged(id, w.canGoBack, w.canGoForward)
            && evs[|evs| - 2] == PageFinished(id, w.url.GetOr(""), w.title.GetOr(""))
          else
            evs[|evs| - 1].PageError?)
  {
    var a := LifecycleEvents(id, DidStartProvisional(run.start));
    var b := EventsFor(id, RedirectCallbacks(run.redirects));
    var c := EventsFor(id, EndingCallbacks(run.ending));
    RunEventsSplit(id, run);
    EndingReport(id, run.ending);
    LastTwo(a, b, c);
    var evs := a + (b + c);
    if Finishes(run.ending) {
      var w := run.ending.outcome.view;
      assert c[|c| - 1] == NavigationStateChanged(id, w.canGoBack, w.canGoForward);
      assert c[|c| - 2] == PageFinished(id, w.url.GetOr(""), w.title.GetOr(""));
      assert evs[|evs| - 1] == c[|c| - 1] && evs[|evs| - 2] == c[|c| - 2];
    } else {
      assert evs[|evs| - 1] == c[|c| - 1];
    }
  }

  /** A navigation's events are the start's, then the redirects', then the
      ending's. */
  lemma RunEventsSplit(id: int, run: NavigationRun)
    ensures EventsFor(id, RunCallbacks(run)) ==
      LifecycleEvents(id, DidStartProvisional(run.start))
      + (EventsFor(id, RedirectCallbacks(run.redirects)) + EventsFor(id, EndingCallbacks(run.ending)))
  {
    var first := [DidStartProvisional(run.start)];
    var middle := RedirectCallbacks(run.redirects);
    var last := EndingCallbacks(run.ending);
    assert RunCallbacks(run) == first + (middle + last);
    EventsForAppend(id, first, middle + last);
    EventsForAppend(id, middle, last);
    assert first[1..] == [];
    assert EventsFor(id, first) == LifecycleEvents(id, first[0]) + EventsFor(id, []);
  }

  lemma CountThree(a: seq<Event>, b: seq<Event>, c: seq<Event>, p: Event -> bool)
    ensures Count(a + (b + c), p) == Count(a, p) + Count(b, p) + Count(c, p)
  {
    CountAppend(a, b + c, p);
    CountAppend(b, c, p);
  }

  lemma LastTwo(a: seq<Event>, b: seq<Event>, c: seq<Event>)
    requires |a| > 0 && |c| > 0
    ensures var evs := a + (b + c);
      && evs[0] == a[0]
      && evs[|evs| - 1] == c[|c| - 1]
      && (|c| >= 2 ==> evs[|evs| - 2] == c[|c| - 2])
  {
  }

  lemma CountOne(e: Event, p: Event -> bool)
    ensures Count([e], p) == (if p(e) then 1 else 0)
  {
    assert [e][1..] == [];
  }

  lemma EventsForPair(id: int, x: LifecycleCallback, y: LifecycleCallback)
    ensures EventsFor(id, [x, y]) == LifecycleEvents(id, x) + LifecycleEvents(id, y)
  {
    assert [x, y][1..] == [y];
    assert [y][1..] == [];
    assert EventsFor(id, [y]) == LifecycleEvents(id, y) + EventsFor(id, []);
    assert LifecycleEvents(id, y) + [] == LifecycleEvents(id, y);
  }

  /** The end of a navigation: exactly one terminal event, history reported
      at commit and after a finish, and no page announcement. */
  lemma EndingReport(id: int, e: Ending)
    ensures var evs := EventsFor(id, EndingCallbacks(e));
      && |evs| > 0
      && Count(evs, IsStart) == 0
      && Count(evs, IsTerminal) == 1
      && Count(evs, IsStateChange) == StateChangesExpected(e)
      && (if Finishes(e) then
            var w := e.outcome.view;
            |evs| >= 2
            && evs[|evs| - 1] == NavigationStateChanged(id, w.canGoBack, w.canGoForward)
            && evs[|evs| - 2] == PageFinished(id, w.url.GetOr(""), w.title.GetOr(""))
          else
            evs[|evs| - 1].PageError?)
  {
    var cbs := EndingCallbacks(e);
    if e.ProvisionalFailure? {
      assert cbs[1..] == [];
      CountOne(EventsFor(id, cbs)[0], IsStart);
      CountOne(EventsFor(id, cbs)[0], IsTerminal);
      CountOne(EventsFor(id, cbs)[0], IsStateChange);
    } else {
      var x := LifecycleEvents(id, cbs[0]);
      var y := LifecycleEvents(id, cbs[1]);
      assert x == [x[0]];
      CountOne(x[0], IsStart);
      CountOne(x[0], IsTerminal);
      CountOne(x[0], IsStateChange);
      if e.outcome.Finished? {
        assert y == [y[0]] + [y[1]];
        CountOne(y[0], IsStart);
        CountOne(y[0], IsTerminal);
        CountOne(y[0], IsStateChange);
        CountOne(y[1], IsStart);
        CountOne(y[1], IsTerminal);
        CountOne(y[1], IsStateChange);
        CountAppend([y[0]], [y[1]], IsStart);
        CountAppend([y[0]], [y[1]], IsTerminal);
        CountAppend([y[0]], [y[1]], IsStateChange);
      } else {
        assert y == [y[0]];
        CountOne(y[0], IsStart);
        CountOne(y[0], IsTerminal);
        CountOne(y[0], IsStateChange);
      }
      CountAppend(x, y, IsStart);
      CountAppend(x, y, IsTerminal);
      CountAppend(x, y, IsStateChange);
      EventsForPair(id, cbs[0], cbs[1]);
      assert cbs == [cbs[0], cbs[1]];
      var evs := EventsFor(id, cbs);
      assert evs[1..][1..] == evs[2..];
      if e.outcome.Finished? {
        assert evs[2..][1..] == evs[3..];
        assert evs[3..] == [];
      } else {
        assert evs[2..] == [];
      }
    }
  }
}

=== FILE: plugin.dfy ===
/**
 `CustomWebviewPlugin`: the id counter, the id-to-controller map, and the
 method-call dispatcher that validates arguments, looks the controller up
 and translates its results into channel replies.

 The plugin object's two mutable fields are a `Registry` value threaded
 through `Handle`. The engine's asynchronous answers for one call (the
 `URL(string:)` verdict, the script result, the serializer outcome) arrive
 in an `Environment`.
 */
module Plugin {
  import opened Values
  import opened UrlNormalizer
  import EngineHandle

  type Controller = EngineHandle.Controller

  /** The fourteen methods `handle` recognises. */
  datatype Command =
    | CreateWebview
    | DisposeWebview
    | LoadUrl
    | GoBack
    | GoForward
    | Reload
    | EvaluateJavaScript
    | GetCurrentUrl
    | GetTitle
    | IsLoading
    | CanGoBack
    | CanGoForward
    | SendMessageToJs
    | InjectJavaScript
  {
    /** The commands that look up an existing controller. */
    predicate Addressed() {
      !CreateWebview? && !DisposeWebview?
    }
  }

  /** The method name each command arrives under. */
  function WireName(cmd: Command): string {
    match cmd
    case CreateWebview => "createWebview"
    case DisposeWebview => "disposeWebview"
    case LoadUrl => "loadUrl"
    case GoBack => "goBack"
    case GoForward => "goForward"
    case Reload => "reload"
    case EvaluateJavaScript => "evaluateJavaScript"
    case GetCurrentUrl => "getCurrentUrl"
    case GetTitle => "getTitle"
    case IsLoading => "isLoading"
    case CanGoBack => "canGoBack"
    case CanGoForward => "canGoForward"
    case SendMessageToJs => "sendMessageToJS"
    case InjectJavaScript => "injectJavaScript"
  }

  const COMMAND_NAMES: set<string> := {
    "createWebview", "disposeWebview", "loadUrl", "goBack", "goForward", "reload", "evaluateJavaScript",
    "getCurrentUrl", "getTitle", "isLoading", "canGoBack", "canGoForward", "sendMessageToJS", "injectJavaScript"}

  /** The `switch call.method` of `handle`: a name is recognised exactly when
      it is one of the fourteen, and then it names its command. */
  function CommandOf(name: string): (cmd: Option<Command>)
    ensures cmd.Some? <==> name in COMMAND_NAMES
    ensures cmd.Some? ==> WireName(cmd.value) == name
    ensures forall c: Command :: WireName(c) == name ==> cmd == Some(c)
  {
    if name == "createWebview" then Some(CreateWebview)
    else if name == "disposeWebview" then Some(DisposeWebview)
    else if name == "loadUrl" then Some(LoadUrl)
    else if name == "goBack" then Some(GoBack)
    else if name == "goForward" then Some(GoForward)
    else if name == "reload" then Some(Reload)
    else if name == "evaluateJavaScript" then Some(EvaluateJavaScript)
    else if name == "getCurrentUrl" then Some(GetCurrentUrl)
    else if name == "getTitle" then Some(GetTitle)
    else if name == "isLoading" then Some(IsLoading)
    else if name == "canGoBack" then Some(CanGoBack)
    else if name == "canGoForward" then Some(CanGoForward)
    else if name == "sendMessageToJS" then Some(SendMessageToJs)
    else if name == "injectJavaScript" then Some(InjectJavaScript)
    else None
  }

  /** Every command is reached by its own name: the fourteen names are
      distinct. */
  lemma CommandOfWireName(cmd: Command)
    ensures CommandOf(WireName(cmd)) == Some(cmd)
  {
  }

  datatype ErrorCode = InvalidArguments | LoadError | JsError | MessageError | InjectionError

  /** The `FlutterError` code string of each error. */
  function CodeName(e: ErrorCode): string {
    match e
    case InvalidArguments => "INVALID_ARGUMENTS"
    case LoadError => "LOAD_ERROR"
    case JsError => "JS_ERROR"
    case MessageError => "MESSAGE_ERROR"
    case InjectionError => "INJECTION_ERROR"
  }

  const INVALID_ARGUMENTS_MESSAGE: string := "Invalid arguments"

  /** What `result(...)` is called with. `Trapped` stands for the runtime trap
      of `nextWebviewId += 1` overflowing `Int64`: no reply is ever sent. */
  datatype Reply =
    | Success(value: Json)
    | Failure(code: ErrorCode, message: Option<string>)
    | NotImplemented
    | Trapped

  const REJECTED: Reply := Failure(InvalidArguments, Some(INVALID_ARGUMENTS_MESSAGE))

  /** The registry after a call and the reply the call gives. */
  datatype Handled = Handled(registry: Registry, reply: Reply)

  /** A `FlutterMethodCall`: the method name and the `arguments` value. */
  datatype MethodCall = MethodCall(name: string, arguments: Json)

  /** The engine's answers for one call: the `URL(string:)` predicate, the
      result of the script the call runs, and the serializer's verdict on a
      message dictionary. */
  datatype Environment = Environment(
    parses: string -> bool,
    script: EngineHandle.ScriptAnswer,
    serialize: map<string, Json> -> EngineHandle.Serialization)

  /** `webviewInstances`, `nextWebviewId`, the channel handed to new
      controllers, and the controllers `disposeWebview` has torn down and
      released, in order. */
  datatype Registry = Registry(instances: map<int, Controller>, nextId: int, channel: bool, released: seq<Controller>)

  /** Every registered id was handed out by the counter, names its own
      controller, and that controller has not been disposed. */
  predicate Valid(r: Registry) {
    && 0 <= r.nextId <= INT64_MAX
    && forall id :: id in r.instances ==>
         0 <= id < r.nextId && r.instances[id].webviewId == id && r.instances[id].Live()
  }

  function Init(channel: bool): (r: Registry)
    ensures Valid(r) && r.instances == map[] && r.nextId == 0
  {
    Registry(map[], 0, channel, [])
  }

  /** The payload field a command needs besides `webviewId`. */
  datatype Field = NoField | StringField(key: string) | ObjectField(key: string)

  function RequiredField(cmd: Command): Field {
    match cmd
    case LoadUrl => StringField("url")
    case EvaluateJavaScript => StringField("script")
    case InjectJavaScript => StringField("script")
    case SendMessageToJs => ObjectField("message")
    case _ => NoField
  }

  /** The failure code a command reports for a controller failure, if any. */
  function FailureCode(cmd: Command): Option<ErrorCode> {
    match cmd
    case LoadUrl => Some(LoadError)
    case EvaluateJavaScript => Some(JsError)
    case SendMessageToJs => Some(MessageError)
    case InjectJavaScript => Some(InjectionError)
    case _ => None
  }

  /** `v as? Int64` on a channel value. The codec hands integers and booleans
      over as `NSNumber`, and the bridging cast accepts an integer in range
      as itself and a boolean as 1 or 0; any other value is refused. */
  function Int64Cast(v: Json): (n: Option<int>)
    ensures n.Some? ==> IsInt64(n.value)
    ensures v.JInt? ==> (n.Some? <==> IsInt64(v.i)) && (n.Some? ==> n.value == v.i)
    ensures v.JBool? ==> n == Some(if v.b then 1 else 0)
    ensures !v.JInt? && !v.JBool? ==> n.None?
  {
    match v
    case JInt(i) => if IsInt64(i) then Some(i) else None
    case JBool(b) => Some(if b then 1 else 0)
    case _ => None
  }

  /** `args["webviewId"] as? Int64`, on arguments that must be a map. */
  function WebviewIdOf(args: Json): (id: Option<int>)
    ensures id.Some? <==> args.JObject? && "webviewId" in args.fields && Int64Cast(args.fields["webviewId"]).Some?
    ensures id.Some? ==> id == Int64Cast(args.fields["webviewId"]) && IsInt64(id.value)
  {
    if args.JObject? && "webviewId" in args.fields then Int64Cast(args.fields["webviewId"]) else None
  }

  predicate HasField(args: Json, f: Field) {
    match f
    case NoField => true
    case StringField(k) => args.JObject? && k in args.fields && args.fields[k].JStr?
    case ObjectField(k) => args.JObject? && k in args.fields && args.fields[k].JObject?
  }

  /** The `guard let` of a per-instance command: the arguments are a map, the
      id is an `Int64`, the required field has the right type, and a
      controller is registered under the id. */
  function Resolve(r: Registry, cmd: Command, args: Json): (target: Option<int>)
    ensures target.Some? ==> target.value in r.instances && Some(target.value) == WebviewIdOf(args)
    ensures target.Some? <==>
      WebviewIdOf(args).Some? && HasField(args, RequiredField(cmd)) && WebviewIdOf(args).value in r.instances
  {
    match WebviewIdOf(args)
    case None => None
    case Some(id) => if HasField(args, RequiredField(cmd)) && id in r.instances then Some(id) else None
  }

  /** `createWebview`: hands out the current counter value and registers a
      fresh controller under it; the counter trap at `Int64.max` changes
      nothing. */
  function Create(r: Registry): (out: Handled)
    ensures r.nextId == INT64_MAX ==> out == Handled(r, Trapped)
    ensures r.nextId != INT64_MAX ==>
      && out.reply == Success(JInt(r.nextId))
      && out.registry.nextId == r.nextId + 1
      && out.registry.instances.Keys == r.instances.Keys + {r.nextId}
      && out.registry.instances[r.nextId] == EngineHandle.NewController(r.nextId, r.channel)
      && (forall id :: id in r.instances && id != r.nextId ==> out.registry.instances[id] == r.instances[id])
      && out.registry.channel == r.channel && out.registry.released == r.released
    ensures Valid(r) ==> Valid(out.registry) && (out.reply.Success? ==> r.nextId !in r.instances)
  {
    if r.nextId == INT64_MAX then
      Handled(r, Trapped)
    else
      var id := r.nextId;
      Handled(r.(instances := r.instances[id := EngineHandle.NewController(id, r.channel)], nextId := id + 1), Success(JInt(id)))
  }

  /** `disposeWebview`: rejects only arguments without an `Int64` id; tears
      down and forgets a registered controller; succeeds with nil either way. */
  function DisposeCommand(r: Registry, args: Json): (out: Handled)
    ensures WebviewIdOf(args).None? ==> out == Handled(r, REJECTED)
    ensures WebviewIdOf(args).Some? ==>
      var id := WebviewIdOf(args).value;
      && out.reply == Success(JNull)
      && out.registry.instances == r.instances - {id}
      && out.registry.nextId == r.nextId && out.registry.channel == r.channel
      && out.registry.released ==
           (if id in r.instances then r.released + [EngineHandle.Dispose(r.instances[id])] else r.released)
  {
    match WebviewIdOf(args)
    case None => Handled(r, REJECTED)
    case Some(id) =>
      if id in r.instances then
        Handled(r.(instances := r.instances - {id}, released := r.released + [EngineHandle.Dispose(r.instances[id])]),
                Success(JNull))
      else
        Handled(r, Success(JNull))
  }

  function OptionalString(s: Option<string>): Json {
    if s.Some? then JStr(s.value) else JNull
  }

  function CompletionReply(done: EngineHandle.Completion, code: ErrorCode): Reply {
    if done.success then Success(JNull) else Failure(code, done.error)
  }

  /** The reply to a script run on a live view whose value the command drops:
      nil on success, the engine's error text under `code` otherwise. */
  function ScriptReply(answer: EngineHandle.ScriptAnswer, code: ErrorCode): Reply {
    match answer
    case ScriptValue(_) => Success(JNull)
    case ScriptFailure(description) => Failure(code, Some(description))
  }

  /** The controller call behind each per-instance command, with its result
      translated into a reply. On a live view, a load of an address that
      parses, a back or forward move with history, a reload, a script and a
      serialized message each reach the engine exactly once; the getters
      touch nothing. The navigation commands and the getters pass
      the view's state through, evaluate passes the script's value through,
      and every controller failure is reported under the command's code with
      the controller's error text as its message. */
  function Invoke(c: Controller, cmd: Command, args: Json, env: Environment): (out: EngineHandle.Answered<Reply>)
    requires cmd.Addressed() && HasField(args, RequiredField(cmd))
    ensures EngineHandle.SameHandle(c, out.controller)
    ensures out.answer.Success? || out.answer.Failure?
    ensures out.answer.Failure? ==> Some(out.answer.code) == FailureCode(cmd)
    ensures cmd.GoBack? || cmd.CanGoBack? ==> out.answer == Success(JBool(c.Live() && c.webView.value.canGoBack))
    ensures cmd.GoForward? || cmd.CanGoForward? ==> out.answer == Success(JBool(c.Live() && c.webView.value.canGoForward))
    ensures cmd.IsLoading? ==> out.answer == Success(JBool(c.Live() && c.webView.value.isLoading))
    ensures cmd.GetCurrentUrl? ==> out.answer == Success(if c.Live() then OptionalString(c.webView.value.url) else JNull)
    ensures cmd.GetTitle? ==> out.answer == Success(if c.Live() then OptionalString(c.webView.value.title) else JNull)
    ensures cmd.Reload? ==> out.answer == Success(JNull)
    ensures !c.Live() && FailureCode(cmd).Some? ==>
      out.answer == Failure(FailureCode(cmd).value, Some(EngineHandle.NOT_INITIALIZED))
    ensures c.Live() && cmd.LoadUrl? ==>
      var url := NormalizeUrlString(args.fields["url"].s);
      out.answer == if env.parses(url) then Success(JNull) else Failure(LoadError, Some(EngineHandle.INVALID_URL_PREFIX + url))
    ensures c.Live() && cmd.EvaluateJavaScript? ==>
      out.answer == if env.script.ScriptValue? then Success(env.script.value.GetOr(JNull))
                    else Failure(JsError, Some(env.script.description))
    ensures c.Live() && cmd.InjectJavaScript? ==> out.answer == ScriptReply(env.script, InjectionError)
    ensures c.Live() && cmd.SendMessageToJs? ==>
      var serialized := env.serialize(args.fields["message"].fields);
      out.answer == if serialized.SerializationFailed?
                    then Failure(MessageError, Some(EngineHandle.SERIALIZE_PREFIX + serialized.description))
                    else ScriptReply(env.script, MessageError)
    ensures cmd.LoadUrl? ==>
      var url := NormalizeUrlString(args.fields["url"].s);
      if c.Live() && env.parses(url) then EngineHandle.LoadIssued(c.issued, out.controller.issued, url)
      else out.controller.issued == c.issued
    ensures cmd.GoBack? ==>
      out.controller.issued == if c.Live() && c.webView.value.canGoBack then c.issued + [EngineHandle.GoBack] else c.issued
    ensures cmd.GoForward? ==>
      out.controller.issued == if c.Live() && c.webView.value.canGoForward then c.issued + [EngineHandle.GoForward] else c.issued
    ensures cmd.Reload? ==>
      out.controller.issued == if c.Live() then c.issued + [EngineHandle.Reload] else c.issued
    ensures cmd.EvaluateJavaScript? || cmd.InjectJavaScript? ==>
      out.controller.issued == if c.Live() then c.issued + [EngineHandle.Evaluate(args.fields["script"].s)] else c.issued
    ensures cmd.SendMessageToJs? ==>
      var serialized := env.serialize(args.fields["message"].fields);
      out.controller.issued ==
        if c.Live() && serialized.Serialized? then c.issued + [EngineHandle.DispatchMessage(serialized.text.GetOr("{}"))]
        else c.issued
    ensures cmd.GetCurrentUrl? || cmd.GetTitle? || cmd.IsLoading? || cmd.CanGoBack? || cmd.CanGoForward? ==>
      out.controller == c
  {
    match cmd
    case LoadUrl =>
      var done := EngineHandle.LoadUrl(c, args.fields["url"].s, env.parses);
      EngineHandle.Answered(done.controller, CompletionReply(done.answer, LoadError))
    case GoBack =>
      var moved := EngineHandle.GoBackOp(c);
      EngineHandle.Answered(moved.controller, Success(JBool(moved.answer)))
    case GoForward =>
      var moved := EngineHandle.GoForwardOp(c);
      EngineHandle.Answered(moved.controller, Success(JBool(moved.answer)))
    case Reload =>
      EngineHandle.Answered(EngineHandle.ReloadOp(c), Success(JNull))
    case EvaluateJavaScript =>
      var done := EngineHandle.EvaluateOp(c, args.fields["script"].s, env.script);
      EngineHandle.Answered(done.controller,
        if done.answer.error.Some? then Failure(JsError, done.answer.error) else Success(done.answer.result.GetOr(JNull)))
    case GetCurrentUrl =>
      EngineHandle.Answered(c, Success(OptionalString(EngineHandle.CurrentUrl(c))))
    case GetTitle =>
      EngineHandle.Answered(c, Success(OptionalString(EngineHandle.Title(c))))
    case IsLoading =>
      EngineHandle.Answered(c, Success(JBool(EngineHandle.IsLoading(c))))
    case CanGoBack =>
      EngineHandle.Answered(c, Success(JBool(EngineHandle.CanGoBack(c))))
    case CanGoForward =>
      EngineHandle.Answered(c, Success(JBool(EngineHandle.CanGoForward(c))))
    case SendMessageToJs =>
      var done := EngineHandle.SendMessageOp(c, env.serialize(args.fields["message"].fields), env.script);
      EngineHandle.Answered(done.controller, CompletionReply(done.answer, MessageError))
    case InjectJavaScript =>
      var done := EngineHandle.InjectOp(c, args.fields["script"].s, env.script);
      EngineHandle.Answered(done.controller, CompletionReply(done.answer, InjectionError))
  }

  /** One recognised command. A per-instance command either is rejected
      without effect or replaces the addressed controller by one with the
      same handle, keeping every other part of the registry. */
  function Dispatch(r: Registry, cmd: Command, args: Json, env: Environment): (out: Handled)
    ensures cmd.CreateWebview? ==> out == Create(r)
    ensures cmd.DisposeWebview? ==> out == DisposeCommand(r, args)
    ensures cmd.Addressed() && Resolve(r, cmd, args).None? ==> out == Handled(r, REJECTED)
    ensures cmd.Addressed() && Resolve(r, cmd, args).Some? ==>
      var id := Resolve(r, cmd, args).value;
      && id in out.registry.instances
      && out.registry == r.(instances := r.instances[id := out.registry.instances[id]])
      && EngineHandle.SameHandle(r.instances[id], out.registry.instances[id])
      && (out.reply.Success? || (out.reply.Failure? && Some(out.reply.code) == FailureCode(cmd)))
      && Invoke(r.instances[id], cmd, args, env) == EngineHandle.Answered(out.registry.instances[id], out.reply)
  {
    match cmd
    case CreateWebview => Create(r)
    case DisposeWebview => DisposeCommand(r, args)
    case _ =>
      match Resolve(r, cmd, args)
      case None => Handled(r, REJECTED)
      case Some(id) =>
        var done := Invoke(r.instances[id], cmd, args, env);
        Handled(r.(instances := r.instances[id := done.controller]), done.answer)
  }

  /** `handle(_:result:)` */
  function Handle(r: Registry, call: MethodCall, env: Environment): (out: Handled)
    ensures call.name !in COMMAND_NAMES ==> out == Handled(r, NotImplemented)
    ensures call.name == "createWebview" ==> out == Create(r)
    ensures call.name == "disposeWebview" ==> out == DisposeCommand(r, call.arguments)
    ensures forall cmd: Command :: call.name == WireName(cmd) ==> out == Dispatch(r, cmd, call.arguments, env)
  {
    match CommandOf(call.name)
    case None => Handled(r, NotImplemented)
    case Some(cmd) => Dispatch(r, cmd, call.arguments, env)
  }

  /** A call that addresses an existing controller. */
  predicate Addresses(call: MethodCall) {
    CommandOf(call.name).Some? && CommandOf(call.name).value.Addressed()
  }

  /** Replacing one controller by one with the same handle keeps the
      registry invariant. */
  lemma ReplaceKeepsValid(r: Registry, id: int, c': Controller)
    requires Valid(r) && id in r.instances && EngineHandle.SameHandle(r.instances[id], c')
    ensures Valid(r.(instances := r.instances[id := c']))
  {
  }

  /** Every recognised command keeps the registry invariant. */
  lemma DispatchPreservesValid(r: Registry, cmd: Command, args: Json, env: Environment)
    requires Valid(r)
    ensures Valid(Dispatch(r, cmd, args, env).registry)
  {
    if cmd.Addressed() && Resolve(r, cmd, args).Some? {
      var id := Resolve(r, cmd, args).value;
      ReplaceKeepsValid(r, id, Dispatch(r, cmd, args, env).registry.instances[id]);
    }
  }

  /** Every call keeps the registry invariant. */
  lemma HandlePreservesValid(r: Registry, call: MethodCall, env: Environment)
    requires Valid(r)
    ensures Valid(Handle(r, call, env).registry)
  {
    if CommandOf(call.name).Some? {
      DispatchPreservesValid(r, CommandOf(call.name).value, call.arguments, env);
    }
  }

  /** A per-instance command is rejected with `INVALID_ARGUMENTS` exactly when
      its arguments do not resolve to a registered controller, and a rejected
      call changes nothing. */
  lemma RejectedExactlyWhenUnresolved(r: Registry, call: MethodCall, env: Environment)
    requires Addresses(call)
    ensures var cmd := CommandOf(call.name).value;
      var Handled(r', reply) := Handle(r, call, env);
      && (reply.Failure? && reply.code == InvalidArguments <==> Resolve(r, cmd, call.arguments).None?)
      && (Resolve(r, cmd, call.arguments).None? ==> r' == r && reply == REJECTED)
  {
  }

  /** Errors name either the bad arguments or the command's own failure code;
      commands without one (`goBack`, the getters, ...) never fail once their
      arguments resolve. */
  lemma ErrorCodesByCommand(r: Registry, call: MethodCall, env: Environment)
    requires CommandOf(call.name).Some?
    ensures var reply := Handle(r, call, env).reply;
      reply.Failure? ==> reply.code == InvalidArguments || Some(reply.code) == FailureCode(CommandOf(call.name).value)
    ensures var reply := Handle(r, call, env).reply;
      reply.Failure? ==>
        || CodeName(reply.code) == "INVALID_ARGUMENTS"
        || (call.name == "loadUrl" && CodeName(reply.code) == "LOAD_ERROR")
        || (call.name == "evaluateJavaScript" && CodeName(reply.code) == "JS_ERROR")
        || (call.name == "sendMessageToJS" && CodeName(reply.code) == "MESSAGE_ERROR")
        || (call.name == "injectJavaScript" && CodeName(reply.code) == "INJECTION_ERROR")
  {
  }

  /** A boolean `webviewId` addresses instance 1 or 0, as the bridged cast
      reads it, rather than being rejected. */
  lemma BooleanIdAddresses(r: Registry, call: MethodCall, env: Environment, b: bool)
    requires call.arguments.JObject? && "webviewId" in call.arguments.fields
    requires call.arguments.fields["webviewId"] == JBool(b)
    ensures WebviewIdOf(call.arguments) == Some(if b then 1 else 0)
    ensures (Addresses(call) && (if b then 1 else 0) in r.instances
             && HasField(call.arguments, RequiredField(CommandOf(call.name).value))) ==>
      Resolve(r, CommandOf(call.name).value, call.arguments) == Some(if b then 1 else 0)
    ensures call.name == "disposeWebview" ==>
      && Handle(r, call, env).reply == Success(JNull)
      && Handle(r, call, env).registry.instances == r.instances - {if b then 1 else 0}
  {
  }

  /** An unrecognized method name is answered `FlutterMethodNotImplemented`. */
  lemma UnknownMethodNotImplemented(r: Registry, call: MethodCall, env: Environment)
    requires call.name !in COMMAND_NAMES
    ensures Handle(r, call, env) == Handled(r, NotImplemented)
  {
  }

  /** Commands other than create and dispose leave the set of ids, the counter
      and the released list alone, touch at most the addressed controller,
      and never dispose it. */
  lemma CommandsKeepRegistryShape(r: Registry, call: MethodCall, env: Environment)
    requires !Addresses(call) ==> CommandOf(call.name).None?
    ensures var r' := Handle(r, call, env).registry;
      && r'.instances.Keys == r.instances.Keys
      && r'.nextId == r.nextId && r'.released == r.released && r'.channel == r.channel
      && (forall id :: id in r.instances ==> EngineHandle.SameHandle(r.instances[id], r'.instances[id]))
      && (forall id :: id in r.instances && Some(id) != WebviewIdOf(call.arguments) ==>
            r'.instances[id] == r.instances[id])
  {
  }

  /** Disposing twice is the same as disposing once, and both calls succeed. */
  lemma DisposeIdempotent(r: Registry, args: Json, env: Environment)
    requires WebviewIdOf(args).Some?
    ensures var Handled(r1, reply1) := Handle(r, MethodCall("disposeWebview", args), env);
      var Handled(r2, reply2) := Handle(r1, MethodCall("disposeWebview", args), env);
      r2 == r1 && reply1 == Success(JNull) && reply2 == Success(JNull)
  {
    CommandOfWireName(DisposeWebview);
  }

  /** Once an id is disposed, every per-instance command naming it is
      rejected as invalid arguments and changes nothing. */
  lemma DisposedIdRejected(r: Registry, args: Json, call: MethodCall, env: Environment, env': Environment)
    requires WebviewIdOf(args).Some? && Addresses(call)
    requires WebviewIdOf(call.arguments) == WebviewIdOf(args)
    ensures var r1 := Handle(r, MethodCall("disposeWebview", args), env').registry;
      Handle(r1, call, env) == Handled(r1, REJECTED)
  {
    CommandOfWireName(DisposeWebview);
    var r1 := Handle(r, MethodCall("disposeWebview", args), env').registry;
    assert r1.instances == r.instances - {WebviewIdOf(args).value};
  }

  /** Through the dispatcher, `loadUrl` on a registered id succeeds exactly
      when `URL(string:)` accepts the normalized address, and otherwise names
      that address in the `LOAD_ERROR`: registered controllers are never
      uninitialised. */
  lemma LoadUrlReply(r: Registry, call: MethodCall, env: Environment)
    requires Valid(r) && CommandOf(call.name) == Some(LoadUrl)
    requires Resolve(r, LoadUrl, call.arguments).Some?
    ensures var url := NormalizeUrlString(call.arguments.fields["url"].s);
      var reply := Handle(r, call, env).reply;
      && (reply == Success(JNull) <==> env.parses(url))
      && (!env.parses(url) ==> reply == Failure(LoadError, Some(EngineHandle.INVALID_URL_PREFIX + url)))
  {
    var id := Resolve(r, LoadUrl, call.arguments).value;
    assert r.instances[id].Live();
  }

  /** Through the dispatcher, the navigation commands and the getters on a
      registered id answer with the state of its view: `goBack` and
      `canGoBack` the back-history flag, `goForward` and `canGoForward` the
      forward one, `isLoading` the loading flag, and the two string getters
      the address and title, nil when the view has none. */
  lemma ViewStateReplies(r: Registry, call: MethodCall, env: Environment)
    requires Valid(r) && Addresses(call)
    requires Resolve(r, CommandOf(call.name).value, call.arguments).Some?
    ensures var cmd := CommandOf(call.name).value;
      var w := r.instances[Resolve(r, cmd, call.arguments).value].webView.value;
      var reply := Handle(r, call, env).reply;
      && (cmd.GoBack? || cmd.CanGoBack? ==> reply == Success(JBool(w.canGoBack)))
      && (cmd.GoForward? || cmd.CanGoForward? ==> reply == Success(JBool(w.canGoForward)))
      && (cmd.IsLoading? ==> reply == Success(JBool(w.isLoading)))
      && (cmd.GetCurrentUrl? ==> reply == Success(if w.url.Some? then JStr(w.url.value) else JNull))
      && (cmd.GetTitle? ==> reply == Success(if w.title.Some? then JStr(w.title.value) else JNull))
  {
    var id := Resolve(r, CommandOf(call.name).value, call.arguments).value;
    assert r.instances[id].Live();
  }

  /** Through the dispatcher, the script commands on a registered id answer
      with the engine's result: `evaluateJavaScript` with the script's value
      (nil when it has none) or a `JS_ERROR` carrying the engine's error
      text; `injectJavaScript` and `sendMessageToJS` with nil or the engine's
      error text under their own codes, the latter first reporting a message
      the serializer refuses. */
  lemma ScriptReplies(r: Registry, call: MethodCall, env: Environment)
    requires Valid(r) && Addresses(call)
    requires Resolve(r, CommandOf(call.name).value, call.arguments).Some?
    ensures var cmd := CommandOf(call.name).value;
      var reply := Handle(r, call, env).reply;
      && (cmd.EvaluateJavaScript? && env.script.ScriptValue? ==> reply == Success(env.script.value.GetOr(JNull)))
      && (cmd.EvaluateJavaScript? && env.script.ScriptFailure? ==>
            reply == Failure(JsError, Some(env.script.description)))
      && (cmd.InjectJavaScript? ==> reply == ScriptReply(env.script, InjectionError))
      && (cmd.SendMessageToJs? ==>
            var serialized := env.serialize(call.arguments.fields["message"].fields);
            reply == if serialized.SerializationFailed?
                     then Failure(MessageError, Some(EngineHandle.SERIALIZE_PREFIX + serialized.description))
                     else ScriptReply(env.script, MessageError))
  {
    var id := Resolve(r, CommandOf(call.name).value, call.arguments).value;
    assert r.instances[id].Live();
  }

  /** Through the dispatcher, a command on a registered id reaches that
      controller's engine: a load of an address that parses, a back or
      forward move when there is history, every reload and script, and every
      message the serializer accepts are issued once, with nothing else;
      the getters leave the controller as it was. */
  lemma EngineEffects(r: Registry, call: MethodCall, env: Environment)
    requires Valid(r) && Addresses(call)
    requires Resolve(r, CommandOf(call.name).value, call.arguments).Some?
    ensures var cmd := CommandOf(call.name).value;
      var id := Resolve(r, cmd, call.arguments).value;
      var c := r.instances[id];
      var w := c.webView.value;
      var r' := Handle(r, call, env).registry;
      && id in r'.instances
      && (cmd.LoadUrl? ==>
            var url := NormalizeUrlString(call.arguments.fields["url"].s);
            if env.parses(url) then EngineHandle.LoadIssued(c.issued, r'.instances[id].issued, url)
            else r'.instances[id].issued == c.issued)
      && (cmd.GoBack? ==>
            r'.instances[id].issued == if w.canGoBack then c.issued + [EngineHandle.GoBack] else c.issued)
      && (cmd.GoForward? ==>
            r'.instances[id].issued == if w.canGoForward then c.issued + [EngineHandle.GoForward] else c.issued)
      && (cmd.Reload? ==> r'.instances[id].issued == c.issued + [EngineHandle.Reload])
      && (cmd.EvaluateJavaScript? || cmd.InjectJavaScript? ==>
            r'.instances[id].issued == c.issued + [EngineHandle.Evaluate(call.arguments.fields["script"].s)])
      && (cmd.SendMessageToJs? ==>
            var serialized := env.serialize(call.arguments.fields["message"].fields);
            r'.instances[id].issued ==
              if serialized.Serialized? then c.issued + [EngineHandle.DispatchMessage(serialized.text.GetOr("{}"))]
              else c.issued)
      && (cmd.GetCurrentUrl? || cmd.GetTitle? || cmd.IsLoading? || cmd.CanGoBack? || cmd.CanGoForward? ==>
            r'.instances[id] == c)
  {
    var id := Resolve(r, CommandOf(call.name).value, call.arguments).value;
    assert r.instances[id].Live();
  }

  /** One call with the engine's answers to it. */
  datatype Step = Step(call: MethodCall, env: Environment)

  /** The registry after one call. */
  function Next(r: Registry, st: Step): Registry {
    Handle(r, st.call, st.env).registry
  }

  /** The id a single call hands out: one exactly when it is a
      `createWebview` that succeeds. */
  function StepIds(r: Registry, st: Step): seq<int> {
    var reply := Handle(r, st.call, st.env).reply;
    if CommandOf(st.call.name) == Some(CreateWebview) && reply.Success? && reply.value.JInt? then [reply.value.i] else []
  }

  /** The registry after a sequence of calls. */
  function Final(r: Registry, steps: seq<Step>): Registry
    decreases |steps|
  {
    if |steps| == 0 then r else Final(Next(r, steps[0]), steps[1..])
  }

  /** The ids `createWebview` replied with during a sequence of calls. */
  function CreatedIds(r: Registry, steps: seq<Step>): seq<int>
    decreases |steps|
  {
    if |steps| == 0 then [] else StepIds(r, steps[0]) + CreatedIds(Next(r, steps[0]), steps[1..])
  }

  /** The counter never goes back, and a call that hands out an id hands out
      the counter's value and advances it by one. */
  lemma CounterMonotonic(r: Registry, st: Step)
    ensures Next(r, st).nextId >= r.nextId
    ensures StepIds(r, st) == [] || (StepIds(r, st) == [r.nextId] && Next(r, st).nextId == r.nextId + 1)
  {
  }

  predicate Increasing(ids: seq<int>) {
    forall i, j :: 0 <= i < j < |ids| ==> ids[i] < ids[j]
  }

  predicate Within(ids: seq<int>, lo: int, hi: int) {
    forall i :: 0 <= i < |ids| ==> lo <= ids[i] < hi
  }

  /** Putting an id below every later one in front of an increasing run keeps
      it increasing. */
  lemma {:induction false} PrependIncreasing(lo: int, hi: int, head: seq<int>, tail: seq<int>)
    requires Increasing(tail) && Within(tail, lo, hi)
    requires head == [] || (head == [lo - 1] && lo <= hi)
    ensures Increasing(head + tail) && Within(head + tail, lo - |head|, hi)
  {
    var ids := head + tail;
    if head == [] {
      assert ids == tail;
    } else {
      assert forall i :: 0 < i < |ids| ==> ids[i] == tail[i - 1];
      assert forall j :: 0 < j < |ids| ==> ids[0] < ids[j];
    }
  }

  /** An id at or above the counter is not registered. */
  lemma AboveCounterUnregistered(r: Registry, ids: seq<int>, hi: int)
    requires Valid(r) && Within(ids, r.nextId, hi)
    ensures forall i :: 0 <= i < |ids| ==> ids[i] !in r.instances
  {
  }

  /** Ids are handed out in strictly increasing order, all at or above the
      counter's starting value and below its final value; so none of them is
      an id registered at the start, and an id is never handed out twice,
      whatever is disposed in between. */
  lemma {:induction false} IdsStrictlyIncrease(r: Registry, steps: seq<Step>)
    requires Valid(r)
    ensures Increasing(CreatedIds(r, steps))
    ensures Within(CreatedIds(r, steps), r.nextId, Final(r, steps).nextId)
    ensures forall i :: 0 <= i < |CreatedIds(r, steps)| ==> CreatedIds(r, steps)[i] !in r.instances
    ensures r.nextId <= Final(r, steps).nextId
    decreases |steps|
  {
    if |steps| > 0 {
      var r1 := Next(r, steps[0]);
      CounterMonotonic(r, steps[0]);
      HandlePreservesValid(r, steps[0].call, steps[0].env);
      IdsStrictlyIncrease(r1, steps[1..]);
      var head := StepIds(r, steps[0]);
      var tail := CreatedIds(r1, steps[1..]);
      var f := Final(r1, steps[1..]);
      assert Final(r, steps) == f;
      assert CreatedIds(r, steps) == head + tail;
      if head == [] {
        PrependIncreasing(r1.nextId, f.nextId, head, tail);
        assert Within(head + tail, r.nextId, f.nextId);
      } else {
        PrependIncreasing(r.nextId + 1, f.nextId, head, tail);
      }
    }
    AboveCounterUnregistered(r, CreatedIds(r, steps), Final(r, steps).nextId);
  }
}

=== FILE: script_messages.dfy ===
/**
 The controller's `WKScriptMessageHandler`: every message the page posts on
 the `flutterWebview` channel is turned into one envelope and forwarded as
 `onJavaScriptMessage`, whatever its body looks like.

 JSON parsing is an oracle with three outcomes. A string that does not parse
 makes `JSONSerialization.jsonObject` throw out of the `if let` into the
 `catch`, which builds a `type: "error"` envelope; only a string that parses
 to something other than an object is wrapped as plain text.
 */
module ScriptMessages {
  import opened Values
  import opened Events
  import opened EngineHandle

  /** The body of a `WKScriptMessage`, by the casts the handler tries. */
  datatype MessageBody =
    | Dict(fields: map<string, Json>)
    | Str(text: string)
    | Other(description: string)

  /** What `JSONSerialization.jsonObject(with:)` does with a string. */
  datatype JsonParse = Object(fields: map<string, Json>) | NonObject | Throws(reason: string)

  const PARSE_FAILURE: string := "Failed to parse JavaScript message"
  const SOURCE_JAVASCRIPT: Json := JStr("javascript")
  const DEFAULT_TYPE: Json := JStr("message")

  /** The keys the handler writes itself. */
  const STAMPED_KEYS: set<string> := {"webviewId", "source"}

  /** A plain text (or a described non-string body) wrapped as a message. */
  function Wrapped(content: string, now: string): map<string, Json> {
    map["type" := DEFAULT_TYPE, "data" := JObject(map["content" := JStr(content)]), "timestamp" := JStr(now)]
  }

  /** The message the host receives always names its type, carries data, and
      is stamped with this view's id and the `javascript` source. */
  predicate Envelope(id: int, m: map<string, Json>) {
    && "type" in m && "data" in m
    && "webviewId" in m && m["webviewId"] == JInt(id)
    && "source" in m && m["source"] == SOURCE_JAVASCRIPT
  }

  /** `page` is the dictionary the page supplied: its fields survive, except
      the two the handler stamps; `type` and `data` are filled in only when
      missing. */
  predicate KeepsPageFields(page: map<string, Json>, m: map<string, Json>) {
    && m.Keys == page.Keys + STAMPED_KEYS + {"type", "data"}
    && (forall k :: k in page && k !in STAMPED_KEYS ==> k in m && m[k] == page[k])
    && m["type"] == (if "type" in page then page["type"] else DEFAULT_TYPE)
    && m["data"] == (if "data" in page then page["data"] else JObject(map[]))
  }

  /** The metadata step of `userContentController(_:didReceive:)`: stamp the
      id and source, then default `type` and `data`. */
  function Stamp(id: int, page: map<string, Json>): (m: map<string, Json>)
    ensures Envelope(id, m)
    ensures KeepsPageFields(page, m)
  {
    var m1 := page["webviewId" := JInt(id)]["source" := SOURCE_JAVASCRIPT];
    var m2 := if "type" in m1 then m1 else m1["type" := DEFAULT_TYPE];
    if "data" in m2 then m2 else m2["data" := JObject(map[])]
  }

  /** The `catch` branch of `userContentController(_:didReceive:)`: the
      envelope for a string whose JSON parse threw. */
  function ErrorEnvelope(id: int, reason: string, original: string, now: string): (m: map<string, Json>)
    ensures Envelope(id, m)
  {
    map[
      "type" := JStr("error"),
      "data" := JObject(map[
        "error" := JStr(PARSE_FAILURE),
        "details" := JStr(reason),
        "originalMessage" := JStr(original)]),
      "timestamp" := JStr(now),
      "webviewId" := JInt(id),
      "source" := SOURCE_JAVASCRIPT]
  }

  predicate ParseThrows(body: MessageBody, parse: string -> JsonParse) {
    body.Str? && parse(body.text).Throws?
  }

  /** The dictionary `userContentController(_:didReceive:)` builds from the
      message body before stamping; defined only when parsing did not throw. */
  function PageDictionary(body: MessageBody, parse: string -> JsonParse, now: string): map<string, Json>
    requires !ParseThrows(body, parse)
  {
    match body
    case Dict(fields) => fields
    case Str(text) =>
      (match parse(text)
       case Object(fields) => fields
       case NonObject => Wrapped(text, now))
    case Other(description) => Wrapped(description, now)
  }

  /** The envelope forwarded for one message body: a parse failure yields the
      error envelope carrying the original text; a dictionary body, or a
      string that parses to an object, keeps the page's fields; any other
      string, and any other body by its description, is wrapped as a
      `message` whose `data.content` is that text; each is stamped and
      defaulted. */
  function Normalize(id: int, body: MessageBody, parse: string -> JsonParse, now: string): (m: map<string, Json>)
    ensures Envelope(id, m)
    ensures ParseThrows(body, parse) ==>
      m == ErrorEnvelope(id, parse(body.text).reason, body.text, now)
    ensures !ParseThrows(body, parse) ==> KeepsPageFields(PageDictionary(body, parse, now), m)
    ensures body.Dict? ==> KeepsPageFields(body.fields, m)
    ensures body.Str? && parse(body.text).Object? ==> KeepsPageFields(parse(body.text).fields, m)
    ensures body.Str? && parse(body.text).NonObject? ==> KeepsPageFields(Wrapped(body.text, now), m)
    ensures body.Other? ==> KeepsPageFields(Wrapped(body.description, now), m)
  {
    if ParseThrows(body, parse) then
      ErrorEnvelope(id, parse(body.text).reason, body.text, now)
    else
      Stamp(id, PageDictionary(body, parse, now))
  }

  /** `userContentController(_:didReceive:)`: a message on `flutterWebview`
      reaches the host as exactly one `onJavaScriptMessage`; other channel
      names produce nothing, and so does a disposed handle or one whose
      channel is gone. */
  function OnScriptMessage(c: Controller, name: string, body: MessageBody, parse: string -> JsonParse, now: string): (evs: seq<Event>)
    ensures name != MESSAGE_CHANNEL ==> evs == []
    ensures name == MESSAGE_CHANNEL && c.Live() && c.channel ==>
      evs == [JavaScriptMessage(c.webviewId, Normalize(c.webviewId, body, parse, now))]
    ensures !(c.Live() && c.channel) ==> evs == []
    ensures |evs| <= 1
  {
    if name == MESSAGE_CHANNEL then
      Emitted(c, [JavaScriptMessage(c.webviewId, Normalize(c.webviewId, body, parse, now))])
    else
      []
  }

  /** A page dictionary's own `webviewId` and `source` never reach the host. */
  lemma StampOverridesPage(id: int, page: map<string, Json>)
    requires "webviewId" in page && "source" in page
    ensures var m := Stamp(id, page);
      m["webviewId"] == JInt(id) && m["source"] == SOURCE_JAVASCRIPT
  {
  }

  /** A JSON string that is not an object is delivered as plain text. */
  lemma PlainStringWrapped(id: int, text: string, parse: string -> JsonParse, now: string)
    requires parse(text).NonObject?
    ensures Normalize(id, Str(text), parse, now) ==
      map["type" := DEFAULT_TYPE, "data" := JObject(map["content" := JStr(text)]), "timestamp" := JStr(now),
          "webviewId" := JInt(id), "source" := SOURCE_JAVASCRIPT]
  {
    var m := Normalize(id, Str(text), parse, now);
    var expected := map["type" := DEFAULT_TYPE, "data" := JObject(map["content" := JStr(text)]), "timestamp" := JStr(now),
          "webviewId" := JInt(id), "source" := SOURCE_JAVASCRIPT];
    assert m.Keys == expected.Keys;
  }

  /** A string that fails to parse is delivered as an error that keeps the
      original text: it is not dropped. */
  lemma ParseFailureDelivered(c: Controller, text: string, parse: string -> JsonParse, now: string)
    requires parse(text).Throws? && c.Live() && c.channel
    ensures var evs := OnScriptMessage(c, MESSAGE_CHANNEL, Str(text), parse, now);
      && |evs| == 1
      && evs[0].message["type"] == JStr("error")
      && evs[0].message["data"].JObject?
      && evs[0].message["data"].fields["originalMessage"] == JStr(text)
      && evs[0].message["data"].fields["details"] == JStr(parse(text).reason)
  {
  }

  /** Normalizing a delivered envelope again gives it back unchanged: the
      stamps and defaults are already in place. */
  lemma NormalizeIdempotent(id: int, body: MessageBody, parse: string -> JsonParse, now: string)
    ensures var m := Normalize(id, body, parse, now);
      Normalize(id, Dict(m), parse, now) == m
  {
    var m := Normalize(id, body, parse, now);
    var m' := Normalize(id, Dict(m), parse, now);
    assert m'.Keys == m.Keys;
  }
}

=== FILE: text.dfy ===
/**
 The Foundation string operations the URL normalizer relies on, over
 sequences of Unicode scalar values: `trimmingCharacters(in:)`, `hasPrefix`,
 `contains` and `replacingOccurrences(of:with:)`. Trimming is stated for any
 character set `cs`; the normalizer trims `WHITESPACE`.
 */
module Text {

  /** `CharacterSet.whitespacesAndNewlines`: Unicode general category Z*
      (Zs, Zl, Zp), the controls U+0009 to U+000D, and U+0085. */
  const WHITESPACE: set<char> := {
    ' ', '\t', '\n', '\U{B}', '\U{C}', '\r', '\U{85}', '\U{A0}', '\U{1680}',
    '\U{2000}', '\U{2001}', '\U{2002}', '\U{2003}', '\U{2004}', '\U{2005}', '\U{2006}', '\U{2007}', '\U{2008}',
    '\U{2009}', '\U{200A}', '\U{2028}', '\U{2029}', '\U{202F}', '\U{205F}', '\U{3000}'}

  /** Neither end of `s` is in `cs`: what trimming leaves behind. */
  predicate Clean(s: string, cs: set<char>) {
    |s| == 0 || (s[0] !in cs && s[|s| - 1] !in cs)
  }

  /** The number of characters of `cs` that `s` starts with: the character
      after them, if any, is not in `cs`. */
  function Leading(s: string, cs: set<char>): (n: nat)
    ensures n <= |s|
    ensures n < |s| ==> s[n] !in cs
    decreases |s|
  {
    if |s| > 0 && s[0] in cs then 1 + Leading(s[1..], cs) else 0
  }

  /** The number of characters of `cs` that `s` ends with: the character
      before them, if any, is not in `cs`. */
  function Trailing(s: string, cs: set<char>): (n: nat)
    ensures n <= |s|
    ensures n < |s| ==> s[|s| - n - 1] !in cs
    decreases |s|
  {
    if |s| > 0 && s[|s| - 1] in cs then 1 + Trailing(s[..|s| - 1], cs) else 0
  }

  /** Every character of `s` is in `cs`. */
  predicate AllIn(s: string, cs: set<char>) {
    forall k :: 0 <= k < |s| ==> s[k] in cs
  }

  lemma AllInAppend(a: string, b: string, cs: set<char>)
    requires AllIn(a, cs) && AllIn(b, cs)
    ensures AllIn(a + b, cs)
  {
    assert forall k :: |a| <= k < |a| + |b| ==> (a + b)[k] == b[k - |a|];
  }

  /** Everything `Leading` counts is in `cs`. */
  lemma {:induction false} LeadingRun(s: string, cs: set<char>)
    ensures AllIn(s[..Leading(s, cs)], cs)
    decreases |s|
  {
    if |s| > 0 && s[0] in cs {
      var t := s[1..];
      LeadingRun(t, cs);
      var n := Leading(t, cs);
      assert Leading(s, cs) == n + 1;
      assert s[..n + 1] == [s[0]] + t[..n];
      AllInAppend([s[0]], t[..n], cs);
    }
  }

  /** Everything `Trailing` counts is in `cs`. */
  lemma {:induction false} TrailingRun(s: string, cs: set<char>)
    ensures AllIn(s[|s| - Trailing(s, cs)..], cs)
    decreases |s|
  {
    if |s| > 0 && s[|s| - 1] in cs {
      var t := s[..|s| - 1];
      TrailingRun(t, cs);
      var n := Trailing(t, cs);
      assert Trailing(s, cs) == n + 1;
      assert s[|s| - (n + 1)..] == t[|t| - n..] + [s[|s| - 1]];
      AllInAppend(t[|t| - n..], [s[|s| - 1]], cs);
    }
  }

  /** `s.trimmingCharacters(in: cs)`: the result is the slice of `s` left
      after removing characters of `cs` from both ends, and it is
      the identity on strings that are already clean. */
  function Trim(s: string, cs: set<char>): (r: string)
    ensures Clean(r, cs)
    ensures Clean(s, cs) ==> r == s
    ensures var i := Leading(s, cs);
      i + |r| <= |s| && r == s[i..i + |r|]
      && AllIn(s[..i], cs) && AllIn(s[i + |r|..], cs)
  {
    var i := Leading(s, cs);
    var j := |s| - Trailing(s[i..], cs);
    TrimEnds(s, cs, i, j);
    s[i..j]
  }

  /** The slice between the two runs of `cs` is clean, everything around
      it is in `cs`, and nothing is cut from a clean string. */
  lemma TrimEnds(s: string, cs: set<char>, i: nat, j: int)
    requires i == Leading(s, cs) && j == |s| - Trailing(s[i..], cs)
    ensures i <= j <= |s|
    ensures Clean(s[i..j], cs)
    ensures AllIn(s[..i], cs) && AllIn(s[j..], cs)
    ensures Clean(s, cs) ==> i == 0 && j == |s|
  {
    LeadingRun(s, cs);
    SuffixRun(s, cs, i);
    TrimmedClean(s, cs, i, j);
    if Clean(s, cs) {
      CleanUntrimmed(s, cs);
    }
  }

  /** The trailing run of a suffix of `s` is a trailing run of `s`. */
  lemma SuffixRun(s: string, cs: set<char>, i: nat)
    requires i <= |s|
    ensures Trailing(s[i..], cs) <= |s| - i
    ensures AllIn(s[|s| - Trailing(s[i..], cs)..], cs)
  {
    var t := s[i..];
    TrailingRun(t, cs);
    assert s[|s| - Trailing(t, cs)..] == t[|t| - Trailing(t, cs)..];
  }

  /** Neither end of what lies between the two runs is in `cs`. */
  lemma TrimmedClean(s: string, cs: set<char>, i: nat, j: int)
    requires i == Leading(s, cs) && j == |s| - Trailing(s[i..], cs) && i <= j
    ensures Clean(s[i..j], cs)
  {
    if i < j {
      var t := s[i..];
      var n := Trailing(t, cs);
      assert |t| - n - 1 == j - 1 - i;
      assert t[j - 1 - i] !in cs;
      assert t[j - 1 - i] == s[j - 1];
      assert s[i..j][0] == s[i];
      assert s[i..j][j - i - 1] == s[j - 1];
    }
  }

  lemma CleanUntrimmed(s: string, cs: set<char>)
    requires Clean(s, cs)
    ensures Leading(s, cs) == 0 && Trailing(s[Leading(s, cs)..], cs) == 0
  {
    if |s| > 0 {
      assert s[0] !in cs;
      assert s[0..] == s;
    }
  }

  /** `s.hasPrefix(p)` */
  predicate HasPrefix(s: string, p: string) {
    |p| <= |s| && s[..|p|] == p
  }

  /** `s.contains(p)`: `p` occurs somewhere in `s`. */
  predicate Contains(s: string, p: string)
    decreases |s|
  {
    HasPrefix(s, p) || (|s| > 0 && Contains(s[1..], p))
  }

  /** `s.replacingOccurrences(of: p, with: r)`: a left-to-right scan that
      replaces each non-overlapping occurrence of `p` by `r`. */
  function ReplaceAll(s: string, p: string, r: string): (t: string)
    requires |p| > 0
    ensures !Contains(s, p) ==> t == s
    ensures HasPrefix(s, p) ==> t == r + ReplaceAll(s[|p|..], p, r)
    decreases |s|
  {
    if |s| < |p| then s
    else if HasPrefix(s, p) then r + ReplaceAll(s[|p|..], p, r)
    else
      assert [s[0]] + s[1..] == s;
      [s[0]] + ReplaceAll(s[1..], p, r)
  }

  /** Occurrence extends to the right: an infix of `b` is an infix of `a + b`. */
  lemma {:induction false} ContainsAppendLeft(a: string, b: string, p: string)
    requires Contains(b, p)
    ensures Contains(a + b, p)
    decreases |a|
  {
    if |a| > 0 {
      assert (a + b)[1..] == a[1..] + b;
      ContainsAppendLeft(a[1..], b, p);
    } else {
      assert a + b == b;
    }
  }

  /** An infix of a prefix of `s` is an infix of `s`. */
  lemma {:induction false} ContainsThroughPrefix(s: string, q: string, p: string)
    requires HasPrefix(s, q) && Contains(q, p)
    ensures Contains(s, p)
    decreases |q|
  {
    if HasPrefix(q, p) {
      assert s[..|p|] == q[..|p|];
    } else {
      assert s[1..][..|q| - 1] == q[1..];
      ContainsThroughPrefix(s[1..], q[1..], p);
    }
  }

  /** A string with an occurrence of `p` gets an occurrence of `r`. */
  lemma {:induction false} ReplaceAllInserts(s: string, p: string, r: string)
    requires |p| > 0 && Contains(s, p)
    ensures Contains(ReplaceAll(s, p, r), r)
    decreases |s|
  {
    if HasPrefix(s, p) {
      var rest := ReplaceAll(s[|p|..], p, r);
      assert (r + rest)[..|r|] == r;
    } else {
      ReplaceAllInserts(s[1..], p, r);
      ContainsAppendLeft([s[0]], ReplaceAll(s[1..], p, r), r);
    }
  }

  /** Characters before the first possible start of `p` are copied through. */
  lemma {:induction false} ReplaceAllSkips(s: string, p: string, r: string, k: nat)
    requires |p| > 0 && k <= |s|
    requires forall i :: 0 <= i < k ==> s[i] != p[0]
    ensures ReplaceAll(s, p, r) == s[..k] + ReplaceAll(s[k..], p, r)
    decreases k
  {
    if k > 0 {
      if |s| < |p| {
        assert ReplaceAll(s[k..], p, r) == s[k..];
        assert s[..k] + s[k..] == s;
      } else {
        assert s[0] != p[0];
        ReplaceAllSkips(s[1..], p, r, k - 1);
        assert s[1..][k - 1..] == s[k..];
        assert [s[0]] + s[1..][..k - 1] == s[..k];
      }
    }
  }

  /** `t` does not end in a character of `cs`. */
  predicate EndsClean(t: string, cs: set<char>) {
    |t| > 0 ==> t[|t| - 1] !in cs
  }

  /** A concatenation ends cleanly when its last part does. */
  lemma AppendEndsClean(a: string, b: string, cs: set<char>)
    requires EndsClean(b, cs) && (|b| == 0 ==> EndsClean(a, cs))
    ensures EndsClean(a + b, cs)
  {
    if |b| > 0 {
      assert (a + b)[|a| + |b| - 1] == b[|b| - 1];
    } else {
      assert a + b == a;
    }
  }

  /** The last character of the result is the last of `s` or of `r`. */
  lemma {:induction false} ReplaceAllKeepsCleanEnd(s: string, p: string, r: string, cs: set<char>)
    requires |p| > 0 && |r| > 0 && r[|r| - 1] !in cs
    requires |s| > 0 ==> s[|s| - 1] !in cs
    ensures var t := ReplaceAll(s, p, r); |t| > 0 ==> t[|t| - 1] !in cs
    decreases |s|
  {
    if |s| >= |p| {
      var k := if HasPrefix(s, p) then |p| else 1;
      var head := if HasPrefix(s, p) then r else [s[0]];
      var rest := s[k..];
      assert EndsClean(rest, cs) by {
        if |rest| > 0 {
          assert rest[|rest| - 1] == s[|s| - 1];
        }
      }
      ReplaceAllKeepsCleanEnd(rest, p, r, cs);
      if |rest| == 0 {
        assert head[|head| - 1] == s[|s| - 1] || HasPrefix(s, p);
      }
      AppendEndsClean(head, ReplaceAll(rest, p, r), cs);
      assert ReplaceAll(s, p, r) == head + ReplaceAll(rest, p, r);
    }
  }

  /** A string that never shows the first character of `p` cannot contain `p`. */
  lemma {:induction false} MissingFirstChar(s: string, p: string)
    requires |p| > 0 && p[0] !in s
    ensures !Contains(s, p)
    decreases |s|
  {
    if |s| > 0 {
      assert s[0] != p[0];
      assert forall k :: 0 <= k < |s| - 1 ==> s[1..][k] == s[k + 1];
      MissingFirstChar(s[1..], p);
    }
  }

  /** An occurrence of `p` in `a + b` lies in `b` when `a` never shows the
      first character of `p`. */
  lemma {:induction false} ContainsPastPrefix(a: string, b: string, p: string)
    requires |p| > 0 && p[0] !in a && Contains(a + b, p)
    ensures Contains(b, p)
    decreases |a|
  {
    if |a| > 0 {
      assert (a + b)[0] == a[0];
      assert (a + b)[1..] == a[1..] + b;
      assert forall k :: 0 <= k < |a| - 1 ==> a[1..][k] == a[k + 1];
      ContainsPastPrefix(a[1..], b, p);
    } else {
      assert a + b == b;
    }
  }
}

=== FILE: url_normalizer.dfy ===
/**
 The address normalization `loadUrl` applies before it builds a request:
 trim, add `https://` when no known scheme is present, apply the
 `google.com` compatibility rewrite, parse, and attach fixed headers, a
 cache-bypassing policy and a 30-second timeout.

 The rewrite is a substring test followed by a replace-all, exactly as the
 controller writes it; it is not a comparison of the parsed host.
 */
module UrlNormalizer {
  import opened Values
  import opened Text

  const HTTP_PREFIX: string := "http://"
  const HTTPS_PREFIX: string := "https://"
  const FILE_PREFIX: string := "file://"

  const GOOGLE: string := "google.com"
  const WWW: string := "www."
  const BARE_GOOGLE: string := "://google.com"
  const WWW_GOOGLE: string := "://www.google.com"

  /** One of the three prefixes `loadUrl` accepts as a scheme (case-sensitive). */
  predicate HasScheme(s: string) {
    HasPrefix(s, HTTP_PREFIX) || HasPrefix(s, HTTPS_PREFIX) || HasPrefix(s, FILE_PREFIX)
  }

  /** A scheme starts with `h` or `f`. */
  lemma SchemeFirstChar(s: string)
    requires HasScheme(s)
    ensures s[0] == 'h' || s[0] == 'f'
  {
    assert s[0] == s[..7][0];
  }

  /** Step 2: a string is left alone exactly when it already has a scheme;
      otherwise the only change is the `https://` in front. */
  function WithScheme(t: string): (u: string)
    ensures HasScheme(u)
    ensures u == t || u == HTTPS_PREFIX + t
    ensures u == t <==> HasScheme(t)
  {
    if !HasScheme(t) then
      assert |HTTPS_PREFIX + t| != |t|;
      assert (HTTPS_PREFIX + t)[..|HTTPS_PREFIX|] == HTTPS_PREFIX;
      HTTPS_PREFIX + t
    else
      t
  }

  /** The guard of the rewrite: some `google.com` and no `www.` anywhere. */
  predicate RewriteGuard(u: string) {
    Contains(u, GOOGLE) && !Contains(u, WWW)
  }

  /** Step 3: the rewrite changes the string exactly when the guard holds and
      `://google.com` occurs; when it does, the result names `www.google.com`. */
  function GoogleRewrite(u: string): (v: string)
    ensures !RewriteGuard(u) ==> v == u
    ensures v != u <==> RewriteGuard(u) && Contains(u, BARE_GOOGLE)
    ensures v != u ==> Contains(v, WWW_GOOGLE) && Contains(v, WWW)
  {
    if RewriteGuard(u) then
      var v := ReplaceAll(u, BARE_GOOGLE, WWW_GOOGLE);
      RewriteEffect(u);
      v
    else
      u
  }

  lemma WwwInWwwGoogle()
    ensures Contains(WWW_GOOGLE, WWW)
  {
    assert WWW_GOOGLE == "://" + "www.google.com";
    assert HasPrefix("www.google.com", WWW);
    ContainsAppendLeft("://", "www.google.com", WWW);
  }

  lemma RewriteEffect(u: string)
    requires RewriteGuard(u)
    ensures var v := ReplaceAll(u, BARE_GOOGLE, WWW_GOOGLE);
      && (v != u <==> Contains(u, BARE_GOOGLE))
      && (v != u ==> Contains(v, WWW_GOOGLE) && Contains(v, WWW))
  {
    var v := ReplaceAll(u, BARE_GOOGLE, WWW_GOOGLE);
    if Contains(u, BARE_GOOGLE) {
      ReplaceAllInserts(u, BARE_GOOGLE, WWW_GOOGLE);
      var i := InfixWitness(v, WWW_GOOGLE);
      WwwInWwwGoogle();
      ContainsThroughPrefix(v[i..], WWW_GOOGLE, WWW);
      ContainsInSuffix(v, i, WWW);
    }
  }

  /** A position at which `p` occurs in `s`. */
  lemma {:induction false} InfixWitness(s: string, p: string) returns (i: nat)
    requires Contains(s, p)
    ensures i <= |s| && HasPrefix(s[i..], p)
    decreases |s|
  {
    if HasPrefix(s, p) {
      i := 0;
    } else {
      var j := InfixWitness(s[1..], p);
      assert s[1..][j..] == s[j + 1..];
      i := j + 1;
    }
  }

  lemma {:induction false} ContainsInSuffix(s: string, i: nat, p: string)
    requires i <= |s| && Contains(s[i..], p)
    ensures Contains(s, p)
  {
    assert s == s[..i] + s[i..];
    ContainsAppendLeft(s[..i], s[i..], p);
  }

  /** The whole string transformation of `loadUrl(url:completion:)`: trim,
      add a scheme, rewrite bare `google.com`. */
  function NormalizeUrlString(raw: string): (s: string)
    ensures HasScheme(s) && Clean(s, WHITESPACE)
  {
    var t := Trim(raw, WHITESPACE);
    var u := WithScheme(t);
    WithSchemeClean(t);
    RewriteKeepsSchemeAndClean(u);
    GoogleRewrite(u)
  }

  lemma WithSchemeClean(t: string)
    requires Clean(t, WHITESPACE)
    ensures Clean(WithScheme(t), WHITESPACE)
  {
    if !HasScheme(t) {
      var u := HTTPS_PREFIX + t;
      assert u[0] == 'h';
      assert |t| > 0 ==> u[|u| - 1] == t[|t| - 1];
    }
  }

  /** The prefix `x + "://"` survives the rewrite when `x` has no colon. */
  lemma SchemeSurvivesRewrite(u: string, x: string)
    requires HasPrefix(u, x + "://")
    requires forall i :: 0 <= i < |x| ==> x[i] != ':'
    ensures HasPrefix(ReplaceAll(u, BARE_GOOGLE, WWW_GOOGLE), x + "://")
  {
    var k := |x|;
    assert u[..k] == x by {
      assert u[..k + 3] == x + "://";
    }
    assert forall i :: 0 <= i < k ==> u[i] != BARE_GOOGLE[0] by {
      assert forall i :: 0 <= i < k ==> u[i] == u[..k][i];
    }
    ReplaceAllSkips(u, BARE_GOOGLE, WWW_GOOGLE, k);
    var w := u[k..];
    assert HasPrefix(w, "://") by {
      assert w[..3] == u[..k + 3][k..];
    }
    ColonSlashSlashSurvives(w);
    var rw := ReplaceAll(w, BARE_GOOGLE, WWW_GOOGLE);
    PrefixConcat(x, rw, "://");
  }

  lemma PrefixConcat(x: string, rest: string, q: string)
    requires HasPrefix(rest, q)
    ensures HasPrefix(x + rest, x + q)
  {
    assert (x + rest)[..|x| + |q|] == x + rest[..|q|];
  }

  lemma ColonSlashSlashSurvives(w: string)
    requires HasPrefix(w, "://")
    ensures HasPrefix(ReplaceAll(w, BARE_GOOGLE, WWW_GOOGLE), "://")
  {
    var t := ReplaceAll(w, BARE_GOOGLE, WWW_GOOGLE);
    if |w| < |BARE_GOOGLE| {
    } else if HasPrefix(w, BARE_GOOGLE) {
      assert WWW_GOOGLE[..3] == "://";
      assert t[..3] == WWW_GOOGLE[..3];
    } else {
      var w1 := w[1..];
      assert w1[0] == '/' && w1[1] == '/';
      ReplaceAllSkips(w1, BARE_GOOGLE, WWW_GOOGLE, 2);
      assert t == [w[0]] + (w1[..2] + ReplaceAll(w1[2..], BARE_GOOGLE, WWW_GOOGLE));
      assert t[..3] == "://";
    }
  }

  lemma RewriteKeepsSchemeAndClean(u: string)
    requires HasScheme(u) && Clean(u, WHITESPACE)
    ensures HasScheme(GoogleRewrite(u)) && Clean(GoogleRewrite(u), WHITESPACE)
  {
    if RewriteGuard(u) {
      GuardedRewrite(u);
      ReplaceKeepsScheme(u);
      var v := ReplaceAll(u, BARE_GOOGLE, WWW_GOOGLE);
      SchemeFirstChar(v);
      ReplaceAllKeepsCleanEnd(u, BARE_GOOGLE, WWW_GOOGLE, WHITESPACE);
    }
  }

  /** Whichever of the three schemes `u` starts with, the rewrite keeps it. */
  lemma ReplaceKeepsScheme(u: string)
    requires HasScheme(u)
    ensures HasScheme(ReplaceAll(u, BARE_GOOGLE, WWW_GOOGLE))
  {
    if HasPrefix(u, HTTP_PREFIX) {
      assert HTTP_PREFIX == "http" + "://";
      SchemeSurvivesRewrite(u, "http");
    } else if HasPrefix(u, HTTPS_PREFIX) {
      assert HTTPS_PREFIX == "https" + "://";
      SchemeSurvivesRewrite(u, "https");
    } else {
      assert FILE_PREFIX == "file" + "://";
      SchemeSurvivesRewrite(u, "file");
    }
  }

  /** Normalizing an already normalized address changes nothing. */
  lemma NormalizeIdempotent(raw: string)
    ensures NormalizeUrlString(NormalizeUrlString(raw)) == NormalizeUrlString(raw)
  {
    var t := Trim(raw, WHITESPACE);
    var u := WithScheme(t);
    var v := NormalizeUrlString(raw);
    assert v == GoogleRewrite(u);
    // Second pass: trimming and the scheme step are identities on `v`.
    assert Trim(v, WHITESPACE) == v;
    assert WithScheme(v) == v;
    if v != u {
      assert Contains(v, WWW);
      assert !RewriteGuard(v);
    } else if RewriteGuard(u) {
      assert !Contains(u, BARE_GOOGLE);
    }
  }

  /** A schemeless address that never mentions `google.com` only gains the
      `https://` prefix. */
  lemma PlainHostGetsHttps(raw: string)
    requires !HasScheme(Trim(raw, WHITESPACE)) && !Contains(Trim(raw, WHITESPACE), GOOGLE)
    ensures NormalizeUrlString(raw) == HTTPS_PREFIX + Trim(raw, WHITESPACE)
  {
    var t := Trim(raw, WHITESPACE);
    if Contains(HTTPS_PREFIX + t, GOOGLE) {
      ContainsPastPrefix(HTTPS_PREFIX, t, GOOGLE);
    }
  }

  /** Any `www.` in the address, anywhere, switches the rewrite off. */
  lemma WwwDisablesRewrite(raw: string)
    requires Contains(Trim(raw, WHITESPACE), WWW)
    ensures NormalizeUrlString(raw) == WithScheme(Trim(raw, WHITESPACE))
  {
    var t := Trim(raw, WHITESPACE);
    if !HasScheme(t) {
      ContainsAppendLeft(HTTPS_PREFIX, t, WWW);
    }
  }

  /** `google.com` followed by any colon-free, `w`-free tail is rewritten to
      `www.google.com` with the tail kept: the test is on the text, so
      `google.com.example` is rewritten although its host is not `google.com`. */
  lemma BareGoogleRewritten(rest: string)
    requires ':' !in rest && 'w' !in rest
    requires |rest| > 0 ==> rest[|rest| - 1] !in WHITESPACE
    ensures NormalizeUrlString(GOOGLE + rest) == HTTPS_PREFIX + WWW + GOOGLE + rest
  {
    var u := HTTPS_PREFIX + (GOOGLE + rest);
    BareGoogleSchemed(rest);
    BareGoogleGuard(rest);
    GuardedRewrite(u);
    BareGoogleReplaced(rest);
  }

  /** When the guard holds, the rewrite is the replace-all. */
  lemma GuardedRewrite(u: string)
    requires RewriteGuard(u)
    ensures GoogleRewrite(u) == ReplaceAll(u, BARE_GOOGLE, WWW_GOOGLE)
  {
  }

  lemma BareGoogleSchemed(rest: string)
    requires |rest| > 0 ==> rest[|rest| - 1] !in WHITESPACE
    ensures NormalizeUrlString(GOOGLE + rest) == GoogleRewrite(HTTPS_PREFIX + (GOOGLE + rest))
  {
    var t := GOOGLE + rest;
    GoogleTailTrimmed(rest);
    GoogleTailUnschemed(rest);
    assert WithScheme(t) == HTTPS_PREFIX + t;
  }

  lemma GoogleTailTrimmed(rest: string)
    requires |rest| > 0 ==> rest[|rest| - 1] !in WHITESPACE
    ensures Trim(GOOGLE + rest, WHITESPACE) == GOOGLE + rest
  {
    var t := GOOGLE + rest;
    assert t[0] == 'g' && 'g' !in WHITESPACE;
    assert t[|t| - 1] == if |rest| > 0 then rest[|rest| - 1] else 'm';
    assert Clean(t, WHITESPACE);
  }

  lemma GoogleTailUnschemed(rest: string)
    ensures !HasScheme(GOOGLE + rest)
  {
    var t := GOOGLE + rest;
    assert t[0] == 'g';
    FirstCharBlocksPrefix(t, HTTP_PREFIX);
    FirstCharBlocksPrefix(t, HTTPS_PREFIX);
    FirstCharBlocksPrefix(t, FILE_PREFIX);
  }

  /** Strings that differ in their first character are not prefixes of each other. */
  lemma FirstCharBlocksPrefix(t: string, p: string)
    requires |t| > 0 && |p| > 0 && t[0] != p[0]
    ensures !HasPrefix(t, p)
  {
    assert |p| <= |t| ==> t[..|p|][0] == t[0];
  }

  lemma BareGoogleGuard(rest: string)
    requires 'w' !in rest
    ensures RewriteGuard(HTTPS_PREFIX + (GOOGLE + rest))
  {
    var t := GOOGLE + rest;
    var u := HTTPS_PREFIX + t;
    assert HasPrefix(t, GOOGLE);
    ContainsAppendLeft(HTTPS_PREFIX, t, GOOGLE);
    assert 'w' !in u by {
      assert u == (HTTPS_PREFIX + GOOGLE) + rest;
      assert 'w' !in HTTPS_PREFIX + GOOGLE;
    }
    MissingFirstChar(u, WWW);
  }

  /** The scan copies `https`, replaces `://google.com`, then copies the tail. */
  lemma BareGoogleReplaced(rest: string)
    requires ':' !in rest
    ensures ReplaceAll(HTTPS_PREFIX + (GOOGLE + rest), BARE_GOOGLE, WWW_GOOGLE) == HTTPS_PREFIX + WWW + GOOGLE + rest
  {
    var w := BARE_GOOGLE + rest;
    HttpsSplit(rest);
    SchemeNameSkipped(w);
    LeadingMatchReplaced(rest);
    HttpsWwwGoogle();
    assert "https" + (WWW_GOOGLE + rest) == ("https" + WWW_GOOGLE) + rest;
  }

  lemma HttpsSplit(rest: string)
    ensures HTTPS_PREFIX + (GOOGLE + rest) == "https" + (BARE_GOOGLE + rest)
  {
    assert HTTPS_PREFIX + GOOGLE == "https" + BARE_GOOGLE;
    assert HTTPS_PREFIX + (GOOGLE + rest) == (HTTPS_PREFIX + GOOGLE) + rest;
    assert "https" + (BARE_GOOGLE + rest) == ("https" + BARE_GOOGLE) + rest;
  }

  /** The scheme name holds no colon, so the scan copies it unchanged. */
  lemma SchemeNameSkipped(w: string)
    ensures ReplaceAll("https" + w, BARE_GOOGLE, WWW_GOOGLE) == "https" + ReplaceAll(w, BARE_GOOGLE, WWW_GOOGLE)
  {
    var u := "https" + w;
    assert forall i :: 0 <= i < 5 ==> u[i] == "https"[i];
    ReplaceAllSkips(u, BARE_GOOGLE, WWW_GOOGLE, 5);
    assert u[..5] == "https" && u[5..] == w;
  }

  lemma LeadingMatchReplaced(rest: string)
    requires ':' !in rest
    ensures ReplaceAll(BARE_GOOGLE + rest, BARE_GOOGLE, WWW_GOOGLE) == WWW_GOOGLE + rest
  {
    var w := BARE_GOOGLE + rest;
    assert HasPrefix(w, BARE_GOOGLE);
    assert w[|BARE_GOOGLE|..] == rest;
    MissingFirstChar(rest, BARE_GOOGLE);
  }

  lemma HttpsWwwGoogle()
    ensures "https" + WWW_GOOGLE == HTTPS_PREFIX + WWW + GOOGLE
  {
    var full := HTTPS_PREFIX + WWW + GOOGLE;
    assert |full| == |"https" + WWW_GOOGLE|;
    assert forall k :: 0 <= k < |full| ==> full[k] == ("https" + WWW_GOOGLE)[k];
  }

  datatype CachePolicy = UseProtocolCachePolicy | ReloadIgnoringLocalAndRemoteCacheData

  /** A `URLRequest`: the address, cache policy, timeout in seconds and the
      header fields set on it, by name. */
  datatype Request = Request(url: string, cachePolicy: CachePolicy, timeoutSeconds: int, headers: map<string, string>)

  const USER_AGENT: string := "Mozilla/5.0 (Macintosh; Intel Mac OS X 10_15_7) AppleWebKit/537.36 (KHTML, like Gecko) Chrome/91.0.4472.124 Safari/537.36"
  const ACCEPT_LANGUAGE: string := "en-US,en;q=0.9"
  const ACCEPT: string := "text/html,application/xhtml+xml,application/xml;q=0.9,image/webp,*/*;q=0.8"
  const LOAD_TIMEOUT_SECONDS: int := 30
  /** `URLRequest(url:)`'s default timeout. */
  const DEFAULT_TIMEOUT_SECONDS: int := 60

  /** The header fields `loadUrl` sets, each to one fixed value. */
  const LOAD_HEADERS: map<string, string> :=
    map["User-Agent" := USER_AGENT, "Accept-Language" := ACCEPT_LANGUAGE, "Accept" := ACCEPT]

  /** `URLRequest(url:)` with Foundation's defaults, as the popup handler builds it. */
  function PlainRequest(url: string): Request {
    Request(url, UseProtocolCachePolicy, DEFAULT_TIMEOUT_SECONDS, map[])
  }

  /** Either the request `loadUrl` hands to the engine, or the normalized
      string that `URL(string:)` refused. */
  datatype Prepared = Ready(request: Request) | InvalidUrl(attempted: string)

  /** `loadUrl(url:completion:)` up to the load: normalize, parse with the
      `URL(string:)` oracle `parses`, build the request. */
  function Prepare(raw: string, parses: string -> bool): (p: Prepared)
    ensures p.Ready? <==> parses(NormalizeUrlString(raw))
    ensures p.InvalidUrl? ==> p.attempted == NormalizeUrlString(raw)
    ensures p.Ready? ==>
      && p.request.url == NormalizeUrlString(raw)
      && HasScheme(p.request.url)
      && p.request.cachePolicy == ReloadIgnoringLocalAndRemoteCacheData
      && p.request.timeoutSeconds == 30
      && p.request.headers == LOAD_HEADERS
  {
    var s := NormalizeUrlString(raw);
    if parses(s) then
      Ready(Request(s, ReloadIgnoringLocalAndRemoteCacheData, LOAD_TIMEOUT_SECONDS, LOAD_HEADERS))
    else
      InvalidUrl(s)
  }
}

=== FILE: values.dfy ===
/**
 Values shared by every part of the webview plugin model: an optional value,
 the JSON-like values that travel over the platform channel and the script
 bridge, and the bounds of Swift's `Int64`.
 */
module Values {

  /** Swift's `T?`. */
  datatype Option<T> = None | Some(value: T) {
    /** `x ?? default` */
    function GetOr(default: T): T {
      if Some? then value else default
    }
  }

  const INT64_MIN: int := -0x8000_0000_0000_0000
  const INT64_MAX: int := 0x7FFF_FFFF_FFFF_FFFF

  predicate IsInt64(i: int) {
    INT64_MIN <= i <= INT64_MAX
  }

  /** A value as carried by a method-channel argument, an event payload or a
      script message: the JSON subset with integer numbers. */
  datatype Json =
    | JNull
    | JBool(b: bool)
    | JInt(i: int)
    | JStr(s: string)
    | JArray(items: seq<Json>)
    | JObject(fields: map<string, Json>)
}
